=== FILE: README.md ===
# Repeating events of a calendar app, in Dafny

This project models the core of a small calendar application (a React app
with a JSON events API). That core has three parts:

- **Event utilities** (`src/utils/eventUtils.ts`). `getFilteredEvents` runs a
  case-insensitive search over title, description and location. It then keeps
  the events of the displayed week or month. `generateRepeatEvent` lists the
  days on which a repeating event occurs: daily, weekly, monthly or yearly, every
  `interval` units, up to an end date. The end date defaults to `MAX_END_DATE`.
  The event-saving hook clamps the rule's end date to `MAX_END_DATE` before
  calling the generator (`src/hooks/useEventOperations.ts`).
- **Repeat-list operations**, the functions defined in
  `src/__tests__/unit/repeatModification.spec.ts`:
  - `modifyRepeatEvent` edits one posted instance. The edit turns that instance
    into a one-off event.
  - `deleteRepeatEvent` removes an instance.
  - `isRepeatEvent` and `shouldShowRepeatIcon` tell whether an event repeats.
  - `getRepeatEventInstances` finds the instances of a series.
  - `createRepeatEventInstances` makes one copy of a base event per date, with
    ids `base_0`, `base_1`, ….
- **Repeat-rule validators**, defined in
  `src/__tests__/unit/repeatValidation.spec.ts`:
  - `validateRepeatInfo` checks the rule: type, interval and end date.
  - `validateRepeatEndDate` checks an end date against the start date and
    `MAX_END_DATE`.
  - `validateRepeatInterval` checks the interval against the per-type maximum.

Every operation is a pure Dafny function over immutable datatypes. Each one is
paired with a reference definition, an inverse or an invariant, and a lemma
connects the two:

- The generator's output is characterised by `Recurrence.Occurs`. That
  predicate says which real days between the start and the end lie on the
  rule's grid.
- The search-and-range filter is one `Seqs.Filter` by both conditions.
- Editing is idempotent and commutes with deleting another id.
- Instance ids are injective.
- Each validator's verdict is stated as a closed condition on its inputs,
  together with the error it reports.

Modules and files:

| file | module | models |
|---|---|---|
| wrappers.dfy | Wrappers | `Option` |
| arith.dfy | Arith | helper facts on Euclidean division |
| dates.dfy | Dates | calendar days, their order, day numbers, `setDate` stepping, weekdays |
| text.dfy | Text | `toLowerCase` (ASCII), `includes`, decimal rendering of indices |
| datetext.dfy | DateText | `formatDate` and the `YYYY-MM-DD` form of `new Date(text)` |
| events.dfy | Events | `Event`, `RepeatInfo`, `RepeatType`, `Partial<Event>` and object spread |
| seqs.dfy | Seqs | order-keeping `filter` and its algebra |
| eventfilter.dfy | EventFilter | `containsTerm`, `searchEvents`, the date-range filters, `getFilteredEvents` |
| recurrence.dfy | Recurrence | `generateRepeatEvent` as its unit tests describe it, and the hook's end-date clamp |
| aswritten.dfy | AsWritten | the body of `generateRepeatEvent` as written, with its JavaScript date setters, and the hook's call of it |
| repeatops.dfy | RepeatOps | modify, delete, find, instance lookup and creation |
| validation.dfy | RepeatValidation | the three validators and their messages |

Two generators are modelled.

- `Recurrence.Generate` follows the unit tests:
  - arguments `(start, interval, type, end?)`;
  - a missing end means `MAX_END_DATE`;
  - an interval of 0 or less gives the start day alone;
  - a monthly or yearly candidate that names no real day is skipped (no
    February 30th, no February 29th in a common year).
- `AsWritten.GenerateAsWritten` follows the code in `src/utils/eventUtils.ts`:
  - arguments `(start, end, interval, type)`;
  - a mutable cursor advanced by `setDate`, `setMonth` or `setFullYear`. These
    roll a missing day over into the next month.

Where the code and its tests disagree, the rest of the model follows the tests
and uses `Recurrence.Generate`. The differences are listed under Findings, and
each is proved on both sides. For days and weeks with a positive interval the
two generators agree (`AsWritten.DailyAndWeeklyAsWrittenAreCorrect`).

The days the hook posts are modelled with both generators.
`AsWritten.RepeatDatesAsWritten` is what the hook does: it calls the code's
generator. `Recurrence.RepeatDatesForEvent` is what it would post with the
generator the tests describe.

## Model

| member | source | states |
|---|---|---|
| Dates.BeforeIffDayNumber | src/utils/eventUtils.ts:66 | comparing two real days as `Date` values orders them exactly as their day numbers, and equal days have equal numbers |
| Dates.AddDays | src/utils/eventUtils.ts:73 | `setDate(getDate() + n)` yields a real day exactly `n` days later |
| Dates.MinDate | src/hooks/useEventOperations.ts:69 | `Math.min` of two days is one of them and not after either |
| Dates.WeekdayOfWeeksLater | src/utils/eventUtils.ts:77-81 | days a whole number of weeks apart fall on the same weekday |
| Text.Includes | src/utils/eventUtils.ts:12 | `includes` is true exactly when the pattern occurs at some position of the text |
| Text.Lower | src/utils/eventUtils.ts:12 | `toLowerCase` keeps the length and maps each character on its own: each capital ASCII letter to the small letter at the same place in the alphabet, everything else unchanged |
| Text.LowerIdempotent | src/utils/eventUtils.ts:12 | lower-casing an already lower-cased text changes nothing |
| Text.NatToStringInjective | src/__tests__/unit/repeatModification.spec.ts:54 | different indices are printed as different decimal texts |
| DateText.ParseDate | src/utils/eventUtils.ts:63-64 | a parsed date is always a real day with a four-digit year, and a text that is not ten characters long never parses |
| DateText.ParseFormatRoundTrip | src/utils/eventUtils.ts:72 | parsing the `YYYY-MM-DD` text that `formatDate` writes gives the same day back |
| DateText.FormatDate | src/utils/eventUtils.ts:72 | writes ten characters with '-' at positions 4 and 7; `DateText.ParseFormatRoundTrip` shows that parsing reads the day back |
| DateText.FormatParseRoundTrip | src/utils/eventUtils.ts:63-64 | a text that parses is exactly the `formatDate` text of the day it names |
| DateText.ParseExamples | src/__tests__/unit/repeatValidation.spec.ts:119-128 | 'invalid-date' is not a date, so it is an unreadable end date; '2025-10-30' is October 30th, 2025 |
| Events.ParseRepeatType | src/__tests__/unit/repeatValidation.spec.ts:7 | a text is accepted as a type exactly when it is one of the five type names, and it then names that type |
| Events.ApplyPatch | src/__tests__/unit/repeatModification.spec.ts:12-14 | `{ ...event, ...modifiedEvent }`: each of the ten fields takes the patch's value when the patch sets it and keeps the event's value otherwise, as the all-fields edit test checks field by field; a patch that sets no field leaves the event as it is |
| Events.ApplyPatchIdempotent | src/__tests__/unit/repeatModification.spec.ts:12-16 | spreading the same partial event twice gives what spreading it once gives |
| EventFilter.FilterByDateRange | src/utils/eventUtils.ts:4-9 | an event is kept exactly when its day lies within the range, both ends included; the kept events stay in their original order, and the result is as long as the number of events in the range, so every copy of a duplicated event is kept |
| EventFilter.ContainsTerm | src/utils/eventUtils.ts:11-13 | true exactly when the lower-cased term occurs at some position of the lower-cased target; never true for a term longer than the target |
| EventFilter.CapitalTermMatches | src/utils/eventUtils.ts:11-13 | the search ignores case: the term 'MEETING' is found in the title 'Team Meeting', and 'meeting' in 'MEETING' |
| EventFilter.EmptyTermMatches | src/utils/eventUtils.ts:11-13 | the empty search term occurs in every text |
| EventFilter.ContainsTermIgnoresCase | src/utils/eventUtils.ts:11-13 | lower-casing the target or the term first does not change the outcome, so the search ignores case on both sides |
| EventFilter.SearchEvents | src/utils/eventUtils.ts:15-20 | an event is kept exactly when the term occurs in its title, its description or its location; order is kept, and the result is as long as the number of matching events, so every copy is kept |
| EventFilter.SearchEmptyTermKeepsAll | src/utils/eventUtils.ts:15-20 | searching for the empty term returns the list unchanged |
| EventFilter.FilterAtWeek | src/utils/eventUtils.ts:22-25 | an event is kept exactly when its day is between the first and the last day of the week window; order and every copy of a kept event are kept |
| EventFilter.WeekBoundaries | src/utils/eventUtils.ts:22-25 | events on the first or last day of the window are kept; events a day before or a day after are not |
| EventFilter.FilterAtMonth | src/utils/eventUtils.ts:27-31 | an event is kept exactly when it has the reference month's year and month and a day from 1 to that month's length; order and every copy of a kept event are kept |
| EventFilter.MonthRangeBoundaries | src/utils/eventUtils.ts:27-31 | a real day is in the month range exactly when it is in that month; the day after the last and the day before the first are outside it |
| EventFilter.GetFilteredEvents | src/utils/eventUtils.ts:33-50 | an event is kept exactly when the term matches it and its day is in the chosen view; order is kept; no events give none |
| EventFilter.GetFilteredIsOneFilter | src/utils/eventUtils.ts:33-50 | search-then-range equals one filter by both conditions, and also equals range-then-search |
| EventFilter.GetFilteredIdempotent | src/utils/eventUtils.ts:33-50 | filtering the result again with the same arguments returns it unchanged |
| EventFilter.GetFilteredEmptyTerm | src/utils/eventUtils.ts:39-47 | with an empty term only the view's date range decides |
| Recurrence.Generate | src/utils/eventUtils.ts:55-99 | the result is listed below this table |
| Recurrence.GenerateIsTheOccurrences | src/utils/eventUtils.ts:55-99 | any strictly increasing list holding exactly the rule's occurrences is the generator's output, so the occurrences determine it |
| Recurrence.GenerateIsRun | src/utils/eventUtils.ts:70-96 | for a positive interval, the generator is the day, month or year run of its type |
| Recurrence.DayRun | src/utils/eventUtils.ts:70-81 | daily and weekly output: starts at the start; consecutive days are exactly `interval` days or `7 * interval` days apart; nothing fits after the last one before the end; it holds exactly the occurrences |
| Recurrence.DayRunLength | src/utils/eventUtils.ts:70-81 | there are (end − start) / step + 1 daily or weekly occurrences, counted in whole steps |
| Recurrence.MonthRun | src/utils/eventUtils.ts:84-88 | monthly output: strictly increasing, every element on the start's day of the month, holding exactly the occurrences |
| Recurrence.YearRun | src/utils/eventUtils.ts:91-95 | yearly output: strictly increasing, every element on the start's month and day, holding exactly the occurrences |
| Recurrence.WeeklyKeepsWeekday | src/utils/eventUtils.ts:77-81 | every weekly occurrence falls on the start's weekday |
| Recurrence.DailyWithoutEndReachesMax | src/__tests__/unit/repeatLogic.spec.ts:27-31 | daily without an end date runs from the start up to and including `MAX_END_DATE` |
| Recurrence.DailyEverySecondDay | src/__tests__/unit/repeatLogic.spec.ts:17-20 | every second day from October 1st to 7th gives the 1st, 3rd, 5th and 7th |
| Recurrence.MonthlyFromJanuary31 | src/__tests__/unit/repeatLogic.spec.ts:70-80 | monthly from January 31st to August 31st gives only the months that have a 31st |
| Recurrence.MonthlyFromJanuary30 | src/__tests__/unit/repeatLogic.spec.ts:134-138 | monthly from January 30th to March 30th of any year gives January 30th and March 30th |
| Recurrence.YearlyFromFebruary29 | src/__tests__/unit/repeatLogic.spec.ts:103-110 | yearly from February 29th, 2024 to February 29th, 2028 gives only the two leap days |
| Recurrence.YearlyGridFromFebruary29 | src/utils/eventUtils.ts:91-95 | every third year from February 29th, 2024 to February 29th, 2036 gives only 2024-02-29 and 2036-02-29: yearly candidates stay on the interval's grid |
| Recurrence.ClampedEnd | src/hooks/useEventOperations.ts:68-70 | no end date (absent or empty) means `MAX_END_DATE`; a later date is cut to `MAX_END_DATE`; an earlier one is kept; an unreadable one gives no end |
| Recurrence.RepeatDatesForEvent | src/hooks/useEventOperations.ts:64-72 | the days the hook would post with the generator its unit tests describe: strictly increasing, between the event's day and `MAX_END_DATE` (the hook's call of the code's generator is `AsWritten.RepeatDatesAsWritten`) |
| Recurrence.RepeatDatesClamp | src/hooks/useEventOperations.ts:67-72 | an end on or before `MAX_END_DATE` is passed through unchanged; a later end, or none, runs to `MAX_END_DATE` |
| RepeatOps.ModifyRepeatEvent | src/__tests__/unit/repeatModification.spec.ts:4-20 | the list keeps its length; events with another id are unchanged; each target becomes the patched event with repeat `{ type: 'none', interval: 0 }`; an unknown id returns the list unchanged |
| RepeatOps.ModifyIdempotent | src/__tests__/unit/repeatModification.spec.ts:4-20 | applying the same edit twice gives what applying it once gives, when the patch keeps the target's id |
| RepeatOps.ModifyRemovesRepeatIcon | src/__tests__/unit/repeatModification.spec.ts:329-339 | after the edit, an event is still found under the target's id, and it shows no repeat icon |
| RepeatOps.DeleteRepeatEvent | src/__tests__/unit/repeatModification.spec.ts:22-24 | exactly the events with another id remain, in order; the length drops by the number of events with that id; an unknown id changes nothing |
| RepeatOps.DeleteAll | src/__tests__/unit/repeatModification.spec.ts:172-180 | deleting ids one after another is one order-keeping filter by all of them: the result is as long as the events whose id is in none of them, every copy kept, and deleting every id leaves nothing |
| RepeatOps.IsRepeatEvent | src/__tests__/unit/repeatModification.spec.ts:26-28 | an event repeats exactly when its type is daily, weekly, monthly or yearly |
| RepeatOps.ShouldShowRepeatIcon | src/__tests__/unit/repeatModification.spec.ts:30-32 | the icon shows exactly for a type other than 'none', and never for `{ type: 'none', interval: 0 }` |
| RepeatOps.FindById | src/__tests__/unit/repeatModification.spec.ts:36 | `find` returns nothing exactly when no event has the id; otherwise it returns the first event with that id |
| RepeatOps.SameSeries | src/__tests__/unit/repeatModification.spec.ts:43-47 | two events are of one series when title, start and end time, repeat type and interval agree |
| RepeatOps.SameSeriesIsEquivalence | src/__tests__/unit/repeatModification.spec.ts:43-47 | the series relation is reflexive, symmetric and transitive, so any instance of a series looks up the same series |
| RepeatOps.GetRepeatEventInstances | src/__tests__/unit/repeatModification.spec.ts:34-49 | nothing for an unknown id or a one-off base; otherwise the base itself and exactly the events of its series, in order, as many as the list holds (the length is the count of series events) |
| RepeatOps.FindByIdAfterDelete | src/__tests__/unit/repeatModification.spec.ts:22-36 | deleting one id does not change which event `find` returns for another id |
| RepeatOps.DeleteThenInstances | src/__tests__/unit/repeatModification.spec.ts:341-348 | looking up a series after deleting another instance is the series minus that instance |
| RepeatOps.InstanceId | src/__tests__/unit/repeatModification.spec.ts:54 | the id starts with the base id and '_', followed by the index's decimal digits |
| RepeatOps.InstanceIdInjective | src/__tests__/unit/repeatModification.spec.ts:54 | two indices give the same instance id only when they are equal |
| RepeatOps.CreateRepeatEventInstances | src/__tests__/unit/repeatModification.spec.ts:51-57 | one instance per date, in the dates' order; instance `i` has id `base_i` and date `dates[i]`, and every other field is the base's |
| RepeatOps.InstanceIdsDistinct | src/__tests__/unit/repeatModification.spec.ts:51-57 | the created instances have pairwise different ids |
| RepeatOps.CreatedInstancesAreOneSeries | src/__tests__/unit/repeatModification.spec.ts:34-57 | every instance created from a repeating base is found by the series lookup started from any one of them |
| RepeatOps.ModifyDeleteCommute | src/__tests__/unit/repeatModification.spec.ts:350-375 | editing one instance and deleting another give the same list in either order |
| RepeatValidation.Message | src/__tests__/unit/repeatValidation.spec.ts:5-79 | the error texts; the text for an interval above the maximum starts with the type name and ends with the maximum's digits and '입니다.' |
| RepeatValidation.IntervalMessageNamesMax | src/__tests__/unit/repeatValidation.spec.ts:75 | two different maximums of one type never give the same message, so the text names the maximum |
| RepeatValidation.MaxEndDateTextIsMaxEndDate | src/__tests__/unit/repeatValidation.spec.ts:1 | the text `MAX_END_DATE_STRING` names the day `MAX_END_DATE` |
| RepeatValidation.ValidateRepeatInfo | src/__tests__/unit/repeatValidation.spec.ts:5-28 | valid exactly when there is no error; each error is reported exactly when its check is the first that fails (type, then interval, then the end date's form, then the end date against `MAX_END_DATE`) |
| RepeatValidation.ValidateRepeatInfoAccepts | src/__tests__/unit/repeatValidation.spec.ts:5-28 | a rule is accepted exactly when its type is known, its interval is at least 0, and its end date is absent or names a day not after `MAX_END_DATE` |
| RepeatValidation.AcceptedRuleIsNotClamped | src/hooks/useEventOperations.ts:67-72 | for an accepted rule, the hook generates up to the rule's own end date, or up to `MAX_END_DATE` when it has none; the clamp never cuts it |
| RepeatValidation.ValidateRepeatEndDate | src/__tests__/unit/repeatValidation.spec.ts:30-50 | valid exactly when both texts are dates, the end is strictly after the start and not after `MAX_END_DATE`; each error (unreadable date, end not after the start, end after `MAX_END_DATE`) is reported exactly when its check is the first that fails |
| RepeatValidation.AcceptedEndDateFitsRule | src/__tests__/unit/repeatValidation.spec.ts:283-299 | once an end date is accepted against a start, the rule check accepts a rule with that end date exactly when its interval is at least 0, and the generated days begin on the start day |
| RepeatValidation.MaxInterval | src/__tests__/unit/repeatValidation.spec.ts:66-74 | a maximum exists exactly for the five type names, and it is the type's entry in the table of maximums (`RepeatValidation.MaxOf`) |
| RepeatValidation.ValidateRepeatInterval | src/__tests__/unit/repeatValidation.spec.ts:52-79 | valid exactly when the interval is at least 0, is 0 only for 'none', and is at most the type's maximum when the type has one; a positive interval is rejected only for exceeding that maximum |
| RepeatValidation.IntervalRangeByType | src/__tests__/unit/repeatValidation.spec.ts:52-79 | per type: a repeating type accepts 1 to its maximum, 'none' accepts only 0, and a text that is no type name accepts every positive interval |
| RepeatValidation.ValidateRepeatInfoExamples | src/__tests__/unit/repeatValidation.spec.ts:82-152 | the outcomes the rule-check tests expect, including the first-failure error for a rule that fails every check |
| RepeatValidation.ValidateRepeatEndDateExamples | src/__tests__/unit/repeatValidation.spec.ts:155-196 | the outcomes the end-date tests expect, including an end equal to the start and an end equal to `MAX_END_DATE` |
| RepeatValidation.ValidateRepeatIntervalExamples | src/__tests__/unit/repeatValidation.spec.ts:199-279 | the outcomes the interval tests expect, including each type's maximum and the value just above it |
| RepeatValidation.IntervalMessageExample | src/__tests__/unit/repeatValidation.spec.ts:248-252 | the message for a weekly interval above 52 reads as the test expects |
| AsWritten.ShiftDays | src/utils/eventUtils.ts:73 | `setDate(getDate() + n)` moves a real day by exactly `n` days, forward or back |
| AsWritten.RollDayCountsFromFirst | src/utils/eventUtils.ts:87 | an overflowing day of the month resolves to the day reached by counting from the first of that month |
| AsWritten.SetMonth | src/utils/eventUtils.ts:87 | `setMonth(getMonth() + n)` always gives a real day, in the month `n` months on or in the month after it |
| AsWritten.SetFullYear | src/utils/eventUtils.ts:94 | `setFullYear(getFullYear() + n)` always gives a real day `n` years on, in the same month or on the first of the next month |
| AsWritten.Advance | src/utils/eventUtils.ts:70-96 | one turn of the loop of each type gives a real day; `AsWritten.AdvanceForward` and `AsWritten.AdvanceStalls` give its direction |
| AsWritten.SetMonthNoRollover | src/utils/eventUtils.ts:87 | `setMonth` lands on the same day `n` months on when that month has it |
| AsWritten.SetMonthRollsOver | src/utils/eventUtils.ts:87 | when the target month lacks the day, `setMonth` lands in the following month, on the number of days the target month was short |
| AsWritten.SetFullYearRollsOver | src/utils/eventUtils.ts:94 | the only day a target year can lack is February 29th, and `setFullYear` makes it March 1st |
| AsWritten.AdvanceForward | src/utils/eventUtils.ts:70-96 | with a positive interval, every turn of each loop moves the cursor strictly later |
| AsWritten.AdvanceStalls | src/utils/eventUtils.ts:70-96 | an interval of 0 leaves the cursor in place, and a negative daily or weekly interval moves it back |
| AsWritten.LoopAsWritten | src/utils/eventUtils.ts:70-96 | the loop yields nothing exactly when the cursor starts after the end; otherwise its output starts at the cursor and is strictly increasing within [cursor, end] |
| AsWritten.GenerateAsWritten | src/utils/eventUtils.ts:55-99 | the code's result: empty when the start is after the end or the type is 'none', otherwise starting at the start and strictly increasing up to the end |
| AsWritten.DayLoopAgrees | src/utils/eventUtils.ts:70-81 | the daily and weekly loops as written take exactly the steps of the generator's day run |
| AsWritten.DailyAndWeeklyAsWrittenAreCorrect | src/utils/eventUtils.ts:70-81 | for a positive interval, the daily and weekly code gives exactly what the generator's contract asks |
| AsWritten.MonthlyFromJanuary30 | src/utils/eventUtils.ts:84-88 | monthly from January 30th to March 30th, as written, gives January 30th and then March (30 − February's length) |
| AsWritten.MonthlyFromJanuary30AsWritten | src/utils/eventUtils.ts:84-88 | in a common year the code gives January 30th and March 2nd, where the contract gives January 30th and March 30th |
| AsWritten.YearlyFromFebruary29AsWritten | src/utils/eventUtils.ts:91-95 | from February 29th, 2024 to February 29th, 2028 the code gives 2024-02-29, then March 1st of 2025, 2026 and 2027; the contract gives the two leap days |
| AsWritten.StalledLoopNeverEnds | src/utils/eventUtils.ts:70-74 | with an interval of 0 the cursor never moves, so the loop condition holds after any number of turns and the loop never ends; a negative daily or weekly interval also keeps the condition true on the model's unbounded calendar |
| AsWritten.RepeatDatesAsWritten | src/hooks/useEventOperations.ts:64-72 | the days the hook posts with the code's generator, for a positive interval: nothing for type 'none' or for a non-empty end date that does not parse, otherwise strictly increasing between the event's day and `MAX_END_DATE` |
| AsWritten.DayKindsPostAsSpecified | src/hooks/useEventOperations.ts:64-72 | for daily and weekly events the hook posts exactly the days of `Recurrence.RepeatDatesForEvent` |
| AsWritten.ParsesAsMarch30 | src/hooks/useEventOperations.ts:69 | an example for `AsWritten.MonthlyEventRollsOver`: the end text '2025-03-30' reads as March 30th, 2025, so that lemma applies to the year 2025 |
| AsWritten.MonthlyEventRollsOver | src/hooks/useEventOperations.ts:64-72 | a monthly event on January 30th of a common year ending March 30th is posted on January 30th and March 2nd, where the tests' generator gives March 30th |

`Recurrence.Generate` (row above) states:

- A start after the end gives nothing.
- Otherwise the output begins with the start.
- An interval of 0 or less gives the start alone.
- The output is strictly increasing and lies within [start, end].
- For a positive interval, it holds exactly the days on the rule's grid.
- Monthly output keeps the day of the month; yearly output keeps the month and
  day.

## Left out

- `src/utils/dateUtils.ts` is not part of this model. In its place:
  - `formatDate` is modelled as the `YYYY-MM-DD` text (`DateText.FormatDate`).
  - `getWeekDates` becomes a parameter: a list of seven days, of which the
    filter uses the first and the last.
  - `isDateInRange` is taken as inclusive at both ends.
- `MAX_END_DATE` and `MAX_END_DATE_STRING` come from a constants file that is
  not part of this model. They are taken as the day 2025-10-30, which the tests
  expect.
- Times of day and time zones are not modelled. Dates are compared at day
  granularity; the app's tests pin the time zone to UTC. The month filter's end
  of 23:59:59.999 on the last day is the same day at this granularity.
- DateText.ParseDate: models `new Date(text)` only for the `YYYY-MM-DD` form.
  A day the month lacks (2025-02-30) is read as no date (`DateText.NoFebruary30`).
  The engine the app's tests run on rolls such a day into the next month
  instead (2025-03-02). So `validateRepeatEndDate('2025-02-30', '2025-02-01')`
  is valid in the app and `InvalidDateFormat` here. Other text forms are not
  modelled.
- Events.EventPatch: a field is either set or absent. A field set explicitly to
  `undefined` overwrites the event's value in `{ ...event, ...patch }`; that
  case cannot be written here and is not modelled.
- An event's `date` field is held as a parsed day. An event whose date text is
  not a date cannot be represented.
- `toLowerCase` is modelled for ASCII letters only. Full Unicode case mapping
  is not modelled.
- Intervals are integers. A fractional or `NaN` interval (a JavaScript number)
  is not modelled.
- The `string | Date` overloads of `generateRepeatEvent` are not modelled.
  Neither is the in-place mutation of a `Date` argument that the loop performs.
- The event-saving hook's network calls, its snackbar messages, its
  stop-on-failure behaviour and its refetch are not modelled. Only the days it
  posts are modelled (`AsWritten.RepeatDatesAsWritten`).
- Recurrence.RepeatDatesForEvent: gives the days the hook would post if it
  called the generator its unit tests describe. The hook calls the code's own
  generator, modelled by `AsWritten.RepeatDatesAsWritten`. The two agree for
  daily and weekly events. For monthly and yearly events the code's rollover
  differs (Findings, `AsWritten.MonthlyEventRollsOver`). For an interval of 0,
  which `validateRepeatInfo` accepts, the hook does not return
  (`AsWritten.StalledLoopNeverEnds`); this member gives the start day alone.
- Recurrence.Generate: a yearly rule takes its candidates on the grid of
  start year + k × interval only. From February 29th with an interval above 1,
  a common year on the grid is skipped, and the next candidate is a full
  interval later. `Generate(2024-02-29, 3, yearly, 2036-02-29)` gives
  2024-02-29 and 2036-02-29 (`Recurrence.YearlyGridFromFebruary29`). A policy that moves on by one year after a
  skipped candidate would also give 2028 and 2032. Neither the code (which
  rolls over to March 1st) nor the tests settle this case.
- EventFilter.FilterAtMonth: takes the month window in the reference day's own
  year. `new Date(y, m, 1)` maps the years 0 to 99 to 1900 + y, so for a
  reference day in those years the code's window lies in another century.
  Those years are not modelled.
- The last branch of `getFilteredEvents` (`return searchedEvents`) is not
  modelled. The view type allows only 'week' and 'month', so that branch cannot
  run.
- A test asserts that the week result is never longer than the month result.
  This is not stated as a lemma, because it does not hold in general: a week
  window can cross into another month.
- The validators' results carry an error kind rather than the text.
  `RepeatValidation.Message` maps each kind to the text the source returns.
- AsWritten.GenerateAsWritten: requires a positive interval. With an interval
  of 0 the loop as written does not end (`AsWritten.StalledLoopNeverEnds`).
  With a negative interval the cursor moves back until it leaves the range of
  a JavaScript `Date` (±8.64e15 ms). The next setter call then gives an
  invalid `Date`, `start <= end` fails, and the loop returns a long descending
  list. That range is not modelled, so a negative interval is not modelled
  either.
- AsWritten.StalledLoopNeverEnds: for a negative daily or weekly interval it
  holds only on the model's unbounded calendar. In JavaScript that loop ends
  once the cursor leaves the `Date` range: after about 14.3 million turns
  for weekly −1, and about 10^8 for daily −1. A negative monthly or yearly
  interval is not covered.
- AsWritten.RepeatDatesAsWritten: requires a positive interval. The hook
  receives whatever interval the form holds. For 0, which `validateRepeatInfo`
  accepts, the hook's loop does not end (`AsWritten.StalledLoopNeverEnds`).
  For a negative interval its output depends on the `Date` range, which is not
  modelled (see `AsWritten.GenerateAsWritten` above).

## Findings

| source | as written | input that shows it | evidently intended | confidence | as-written member | corrected member |
|---|---|---|---|---|---|---|
| src/utils/eventUtils.ts:84-88 | the monthly loop advances the cursor with `setMonth(getMonth() + interval)`, which rolls a missing day into the next month and keeps the drifted day afterwards | monthly, interval 1, from 2025-01-30 to 2025-03-30: gives 2025-01-30 and 2025-03-02 | months without the start's day are skipped, giving 2025-01-30 and 2025-03-30 (repeatLogic.spec.ts:134-138) | not executed | AsWritten.MonthlyFromJanuary30AsWritten | Recurrence.MonthlyFromJanuary30 |
| src/utils/eventUtils.ts:91-95 | the yearly loop advances the cursor with `setFullYear(getFullYear() + interval)`, which turns February 29th into March 1st in a common year and stays on March 1st afterwards | yearly, interval 1, from 2024-02-29 to 2028-02-29: gives 2024-02-29, 2025-03-01, 2026-03-01 and 2027-03-01 | only leap years get an occurrence, giving 2024-02-29 and 2028-02-29 (repeatLogic.spec.ts:103-110) | not executed | AsWritten.YearlyFromFebruary29AsWritten | Recurrence.YearlyFromFebruary29 |
| src/utils/eventUtils.ts:70-74 | `while (start <= end)` with `setDate(getDate() + interval)` never moves the cursor when the interval is 0, so the loop does not end | daily, interval 0, from 2025-10-01 to 2025-10-05: the cursor stays on 2025-10-01 forever | the start day alone (repeatLogic.spec.ts:33-36) | not executed | AsWritten.StalledLoopNeverEnds | Recurrence.Generate |

The code's signature is `(startDate, endDate, interval, type)`. Its unit tests
call it as `(start, interval, type, end?)`. Read with the code's signature, a
test call passes the interval (say 1) as `endDate`. That number is not a text,
so it becomes `end` as it is, and `start > end` compares the start's time
value with 1. The comparison holds, so every such call returns `[]`
(src/utils/eventUtils.ts:63-68). The model follows the tests for
`Recurrence.Generate` and the code for `AsWritten.GenerateAsWritten`.

=== FILE: arith.dfy ===
/** Facts about Euclidean division by a positive divisor, used by the
    recurrence proofs where the step length is a variable. */
module Arith {

  /** Quotient and remainder are determined by any decomposition x = s*q + r with 0 <= r < s. */
  lemma DivModUnique(x: int, s: int, q: int, r: int)
    requires s > 0 && 0 <= r < s
    requires x == s * q + r
    ensures x / s == q && x % s == r
  {
    var q', r' := x / s, x % s;
    assert s * q' + r' == s * q + r;
    assert s * (q' - q) == s * q' - s * q;
    MulSign(s, q' - q);
  }

  lemma MulSign(s: int, k: int)
    requires s > 0
    ensures k >= 1 ==> s * k >= s
    ensures k <= -1 ==> s * k <= -s
  {
  }

  /** Adding whole multiples of `s` does not change the remainder. */
  lemma ModAddMultiple(x: int, s: int, k: int)
    requires s > 0
    ensures (x + s * k) % s == x % s
    ensures (x + s * k) / s == x / s + k
  {
    DivModUnique(x + s * k, s, x / s + k, x % s);
  }

  /** One step of `s` does not change the remainder. */
  lemma ModStep(x: int, s: int)
    requires s > 0
    ensures (x - s) % s == x % s
    ensures (x - s) / s == x / s - 1
  {
    ModAddMultiple(x, s, -1);
  }

  /** A number strictly between 0 and `s` is not a multiple of `s`. */
  lemma SmallIsItsOwnRemainder(x: int, s: int)
    requires 0 <= x < s
    ensures x % s == x && x / s == 0
  {
    DivModUnique(x, s, 0, x);
  }

  /** A multiple of `a * k` is a multiple of `a`. */
  lemma MultipleOfProduct(x: int, a: int, k: int)
    requires a > 0 && k > 0
    requires x % (a * k) == 0
    ensures x % a == 0
  {
    var q := x / (a * k);
    assert x == (a * k) * q;
    assert x == a * (k * q);
    DivModUnique(x, a, k * q, 0);
  }

  /** Going from `x - 1` to `x` raises the quotient by one exactly when `x` is a multiple of `s`. */
  lemma DivStep(x: int, s: int)
    requires s > 0
    ensures x / s - (x - 1) / s == (if x % s == 0 then 1 else 0)
  {
    var q, r := (x - 1) / s, (x - 1) % s;
    if r == s - 1 {
      DivModUnique(x, s, q + 1, 0);
    } else {
      DivModUnique(x, s, q, r + 1);
    }
  }
}

=== FILE: aswritten.dfy ===
/** The body of `generateRepeatEvent` as src/utils/eventUtils.ts writes it:
    while the cursor is not after the end, record it and advance it with the
    JavaScript setters `setDate`, `setMonth` or `setFullYear`.

    Those setters keep the day of the month and let a day that the target
    month lacks roll over into the following month, so a monthly rule from
    the 30th or 31st, or a yearly rule from February 29th, drifts onto other
    days. An interval of 0 never moves the cursor, so the loop does not
    stop; a negative daily or weekly interval moves it back, which in this
    model's unbounded calendar never passes the end either (a JavaScript
    `Date` has a bounded range, which is not modelled). Module
    Recurrence models the generator as its unit tests describe it; the
    lemmas here show where the two part. */
module AsWritten {

  import opened Wrappers
  import opened Dates
  import opened Events
  import DateText
  import Recurrence

  /** The day before `d`. */
  function PrevDay(d: Date): (r: Date)
    requires ValidDate(d)
    ensures ValidDate(r)
    ensures DayNumber(r) == DayNumber(d) - 1
  {
    if d.day > 1 then
      Date(d.year, d.month, d.day - 1)
    else if d.month > 1 then
      DaysBeforeMonthStep(d.year, d.month - 1);
      Date(d.year, d.month - 1, DaysInMonth(d.year, d.month - 1))
    else
      DaysBeforeNextYear(d.year - 1);
      DaysBeforeMonthStep(d.year - 1, 12);
      Date(d.year - 1, 12, 31)
  }

  /** `setDate(getDate() + n)`: `n` days on, or back when `n` is negative. */
  function ShiftDays(d: Date, n: int): (r: Date)
    requires ValidDate(d)
    ensures ValidDate(r)
    ensures DayNumber(r) == DayNumber(d) + n
    decreases if n < 0 then -n else n
  {
    if n >= 0 then AddDays(d, n) else ShiftDays(PrevDay(d), n + 1)
  }

  /** The day a JavaScript `Date` set to day `day` of month `m` of year `y`
      normalises to: that day when the month has it, otherwise the days the
      month came short by, counted into the next month. A day of the month
      taken from a real day is at most 31, so it overflows by at most three. */
  function RollDay(y: int, m: int, day: int): (r: Date)
    requires 1 <= m <= 12 && 1 <= day <= 31
    ensures ValidDate(r)
  {
    if day <= DaysInMonth(y, m) then Date(y, m, day)
    else if m < 12 then Date(y, m + 1, day - DaysInMonth(y, m))
    else Date(y + 1, 1, day - 31)
  }

  /** `RollDay` is the day reached by counting `day - 1` days on from the
      first of the month, which is how a `Date` resolves an overflowing day. */
  lemma RollDayCountsFromFirst(y: int, m: int, day: int)
    requires 1 <= m <= 12 && 1 <= day <= 31
    ensures RollDay(y, m, day) == AddDays(Date(y, m, 1), day - 1)
  {
    var r := RollDay(y, m, day);
    var counted := AddDays(Date(y, m, 1), day - 1);
    if day > DaysInMonth(y, m) {
      DaysBeforeMonthStep(y, m);
      if m == 12 {
        DaysBeforeNextYear(y);
      }
    }
    BeforeIffDayNumber(r, counted);
  }

  /** `setMonth(getMonth() + n)`: day `d.day` of the month `n` months on,
      rolled over when that month is too short. */
  function SetMonth(d: Date, n: int): (r: Date)
    requires ValidDate(d)
    ensures ValidDate(r)
    ensures MonthIndex(r) == MonthIndex(d) + n || MonthIndex(r) == MonthIndex(d) + n + 1
  {
    var target := DayOfMonthIndex(MonthIndex(d) + n, 1);
    RollDay(target.year, target.month, d.day)
  }

  /** `setFullYear(getFullYear() + n)`: the same month and day `n` years on,
      rolled over when that year has no such day. */
  function SetFullYear(d: Date, n: int): (r: Date)
    requires ValidDate(d)
    ensures ValidDate(r)
    ensures r.year == d.year + n
    ensures r.month == d.month || (r.month == d.month + 1 && r.day == 1)
  {
    RollDay(d.year + n, d.month, d.day)
  }

  /** When the target month has the day, `setMonth` lands on it. */
  lemma SetMonthNoRollover(d: Date, n: int)
    requires ValidDate(d) && ValidDate(DayOfMonthIndex(MonthIndex(d) + n, d.day))
    ensures SetMonth(d, n) == DayOfMonthIndex(MonthIndex(d) + n, d.day)
  {
  }

  /** When the target month lacks the day, `setMonth` lands in the month
      after it, on the days the target month came short by. */
  lemma SetMonthRollsOver(d: Date, n: int)
    requires ValidDate(d) && !ValidDate(DayOfMonthIndex(MonthIndex(d) + n, d.day))
    ensures var target := DayOfMonthIndex(MonthIndex(d) + n, 1);
      SetMonth(d, n) == DayOfMonthIndex(MonthIndex(d) + n + 1, d.day - DaysInMonth(target.year, target.month))
  {
    var idx := MonthIndex(d) + n;
    var target := DayOfMonthIndex(idx, 1);
    var r := SetMonth(d, n);
    assert MonthIndex(r) == idx + 1;
    DayOfMonthIndexOfDate(r);
  }

  /** A positive number of months moves the cursor later. */
  lemma SetMonthForward(d: Date, n: int)
    requires ValidDate(d) && n > 0
    ensures Before(d, SetMonth(d, n))
  {
    var target := DayOfMonthIndex(MonthIndex(d) + n, 1);
    var r := SetMonth(d, n);
    assert MonthIndex(r) >= MonthIndex(target);
    MonthIndexOrder(d, r);
  }

  /** When the target year has the day, `setFullYear` lands on it. */
  lemma SetFullYearNoRollover(d: Date, n: int)
    requires ValidDate(d) && ValidDate(Date(d.year + n, d.month, d.day))
    ensures SetFullYear(d, n) == Date(d.year + n, d.month, d.day)
  {
  }

  /** The only day a target year can lack is February 29th, and
      `setFullYear` turns it into March 1st. */
  lemma SetFullYearRollsOver(d: Date, n: int)
    requires ValidDate(d) && !ValidDate(Date(d.year + n, d.month, d.day))
    ensures d.month == 2 && d.day == 29 && !IsLeap(d.year + n)
    ensures SetFullYear(d, n) == Date(d.year + n, 3, 1)
  {
  }

  /** A positive number of years moves the cursor later. */
  lemma SetFullYearForward(d: Date, n: int)
    requires ValidDate(d) && n > 0
    ensures Before(d, SetFullYear(d, n))
  {
  }

  /** One turn of the loop of the given type. */
  function Advance(kind: RepeatType, interval: int, d: Date): (r: Date)
    requires ValidDate(d)
    ensures ValidDate(r)
  {
    match kind
    case NoRepeat => d
    case Daily => ShiftDays(d, interval)
    case Weekly => ShiftDays(d, 7 * interval)
    case Monthly => SetMonth(d, interval)
    case Yearly => SetFullYear(d, interval)
  }

  /** With a positive interval every turn moves the cursor later. */
  lemma AdvanceForward(kind: RepeatType, interval: int, d: Date)
    requires ValidDate(d) && kind != NoRepeat && interval > 0
    ensures Before(d, Advance(kind, interval, d))
  {
    match kind
    case Daily => BeforeIffDayNumber(d, Advance(kind, interval, d));
    case Weekly => BeforeIffDayNumber(d, Advance(kind, interval, d));
    case Monthly => SetMonthForward(d, interval);
    case Yearly => SetFullYearForward(d, interval);
  }

  /** An interval of 0 leaves the cursor where it is; a negative daily or
      weekly interval moves it back. */
  lemma AdvanceStalls(kind: RepeatType, interval: int, d: Date)
    requires ValidDate(d)
    requires interval == 0 || (interval < 0 && kind in {Daily, Weekly})
    ensures NotAfter(Advance(kind, interval, d), d)
    ensures interval == 0 ==> Advance(kind, interval, d) == d
  {
    var r := Advance(kind, interval, d);
    match kind
    case NoRepeat =>
    case Daily => BeforeIffDayNumber(d, r);
    case Weekly => BeforeIffDayNumber(d, r);
    case Monthly =>
      if interval == 0 {
        DayOfMonthIndexOfDate(d);
        SetMonthNoRollover(d, 0);
      }
    case Yearly =>
      if interval == 0 {
        SetFullYearNoRollover(d, 0);
      }
  }

  /** The `while (start <= end)` loop for a positive interval: the cursor
      is recorded and advanced until it passes `last`. */
  function LoopAsWritten(cur: Date, last: Date, kind: RepeatType, interval: int): (r: seq<Date>)
    requires ValidDate(cur) && ValidDate(last) && kind != NoRepeat && interval > 0
    ensures r == [] <==> Before(last, cur)
    ensures r != [] ==> r[0] == cur
    ensures forall i :: 0 <= i < |r| ==> ValidDate(r[i]) && NotAfter(cur, r[i]) && NotAfter(r[i], last)
    ensures Recurrence.StrictlyIncreasing(r)
    decreases DayNumber(last) - DayNumber(cur)
  {
    if Before(last, cur) then
      []
    else
      var next := Advance(kind, interval, cur);
      AdvanceForward(kind, interval, cur);
      BeforeIffDayNumber(last, cur);
      BeforeIffDayNumber(cur, next);
      var rest := LoopAsWritten(next, last, kind, interval);
      ConsKeepsOrder(cur, next, last, rest);
      [cur] + rest
  }

  /** Putting a day in front of a run that starts later keeps the run's
      bounds and order. */
  lemma ConsKeepsOrder(cur: Date, next: Date, last: Date, rest: seq<Date>)
    requires Before(cur, next) && NotAfter(cur, last)
    requires forall i :: 0 <= i < |rest| ==> ValidDate(rest[i]) && NotAfter(next, rest[i]) && NotAfter(rest[i], last)
    requires Recurrence.StrictlyIncreasing(rest)
    requires ValidDate(cur)
    ensures forall i :: 0 <= i < |[cur] + rest| ==>
      ValidDate(([cur] + rest)[i]) && NotAfter(cur, ([cur] + rest)[i]) && NotAfter(([cur] + rest)[i], last)
    ensures Recurrence.StrictlyIncreasing([cur] + rest)
  {
    var r := [cur] + rest;
    forall i | 0 <= i < |r|
      ensures ValidDate(r[i]) && NotAfter(cur, r[i]) && NotAfter(r[i], last)
    {
      if i > 0 {
        assert r[i] == rest[i - 1];
        assert Before(cur, r[i]);
      }
    }
    forall i, j | 0 <= i < j < |r|
      ensures Before(r[i], r[j])
    {
      assert r[j] == rest[j - 1];
      if i > 0 {
        assert r[i] == rest[i - 1];
      }
    }
  }

  /** `generateRepeatEvent(startDate, endDate, interval, type)` as written,
      for a positive interval: nothing when the start is after the end, and
      nothing for type 'none', which has no loop. */
  function GenerateAsWritten(start: Date, last: Date, interval: int, kind: RepeatType): (r: seq<Date>)
    requires ValidDate(start) && ValidDate(last) && interval > 0
    ensures Before(last, start) || kind == NoRepeat ==> r == []
    ensures NotAfter(start, last) && kind != NoRepeat ==> r != [] && r[0] == start
    ensures forall i :: 0 <= i < |r| ==> ValidDate(r[i]) && NotAfter(start, r[i]) && NotAfter(r[i], last)
    ensures Recurrence.StrictlyIncreasing(r)
  {
    if Before(last, start) || kind == NoRepeat then [] else LoopAsWritten(start, last, kind, interval)
  }

  /** For days and weeks the loop as written takes the same steps as the
      generator's daily and weekly run. */
  lemma {:induction false} DayLoopAgrees(cur: Date, last: Date, kind: RepeatType, interval: int)
    requires ValidDate(cur) && ValidDate(last) && interval > 0 && kind in {Daily, Weekly}
    ensures LoopAsWritten(cur, last, kind, interval)
      == Recurrence.DayStepsFrom(cur, Recurrence.StepDays(kind, interval), last)
    decreases DayNumber(last) - DayNumber(cur)
  {
    BeforeIffDayNumber(last, cur);
    if !Before(last, cur) {
      var next := Advance(kind, interval, cur);
      assert next == AddDays(cur, Recurrence.StepDays(kind, interval));
      AdvanceForward(kind, interval, cur);
      BeforeIffDayNumber(cur, next);
      DayLoopAgrees(next, last, kind, interval);
    }
  }

  /** So the daily and weekly loops are right as written: for a positive
      interval they produce what the generator's contract asks. */
  lemma DailyAndWeeklyAsWrittenAreCorrect(start: Date, last: Date, interval: int, kind: RepeatType)
    requires ValidDate(start) && ValidDate(last) && interval > 0 && kind in {Daily, Weekly}
    ensures GenerateAsWritten(start, last, interval, kind) == Recurrence.Generate(start, interval, kind, Some(last))
  {
    if !Before(last, start) {
      DayLoopAgrees(start, last, kind, interval);
    }
  }

  // ---------------------------------------------------------------------
  // Where the loop as written parts from the generator's contract.
  // ---------------------------------------------------------------------

  /** Monthly from January 30th to March 30th of any year: February 30th
      rolls over into March, and March 30th is never reached. */
  lemma MonthlyFromJanuary30(y: int)
    ensures GenerateAsWritten(Date(y, 1, 30), Date(y, 3, 30), 1, Monthly)
      == [Date(y, 1, 30), Date(y, 3, 30 - DaysInMonth(y, 2))]
  {
    var start, last := Date(y, 1, 30), Date(y, 3, 30);
    var second := Date(y, 3, 30 - DaysInMonth(y, 2));
    var third := Date(y, 4, 30 - DaysInMonth(y, 2));
    assert MonthIndex(start) + 1 == 12 * y + 1;
    assert Advance(Monthly, 1, start) == RollDay(y, 2, 30) == second;
    assert MonthIndex(second) + 1 == 12 * y + 3;
    assert Advance(Monthly, 1, second) == RollDay(y, 4, second.day) == third;
    assert LoopAsWritten(third, last, Monthly, 1) == [];
    assert LoopAsWritten(second, last, Monthly, 1) == [second];
  }

  /** In a common year such as 2025: January 30th, then March 2nd, where
      the generator's contract gives January 30th and March 30th. */
  lemma MonthlyFromJanuary30AsWritten(y: int)
    requires !IsLeap(y)
    ensures GenerateAsWritten(Date(y, 1, 30), Date(y, 3, 30), 1, Monthly)
      == [Date(y, 1, 30), Date(y, 3, 2)]
    ensures Recurrence.Generate(Date(y, 1, 30), 1, Monthly, Some(Date(y, 3, 30)))
      == [Date(y, 1, 30), Date(y, 3, 30)]
  {
    MonthlyFromJanuary30(y);
    Recurrence.MonthlyFromJanuary30(y);
  }

  /** Yearly from February 29th, 2024 to February 29th, 2028: the cursor
      becomes March 1st in 2025 and stays on March 1st, so February 29th,
      2028 is never reached, where the generator's contract gives the two
      February 29ths. */
  lemma YearlyFromFebruary29AsWritten()
    ensures GenerateAsWritten(Date(2024, 2, 29), Date(2028, 2, 29), 1, Yearly)
      == [Date(2024, 2, 29), Date(2025, 3, 1), Date(2026, 3, 1), Date(2027, 3, 1)]
    ensures Recurrence.Generate(Date(2024, 2, 29), 1, Yearly, Some(Date(2028, 2, 29)))
      == [Date(2024, 2, 29), Date(2028, 2, 29)]
  {
    Recurrence.YearlyFromFebruary29();
    var last := Date(2028, 2, 29);
    SetFullYearRollsOver(Date(2024, 2, 29), 1);
    SetFullYearNoRollover(Date(2025, 3, 1), 1);
    SetFullYearNoRollover(Date(2026, 3, 1), 1);
    SetFullYearNoRollover(Date(2027, 3, 1), 1);
    assert LoopAsWritten(Date(2028, 3, 1), last, Yearly, 1) == [];
  }

  /** The cursor after `n` turns of the loop. */
  function Iterate(cur: Date, kind: RepeatType, interval: int, n: nat): (r: Date)
    requires ValidDate(cur)
    ensures ValidDate(r)
    decreases n
  {
    if n == 0 then cur else Iterate(Advance(kind, interval, cur), kind, interval, n - 1)
  }

  /** With an interval of 0 the cursor does not move at all, so the loop
      condition `start <= end` holds after any number of turns and the loop
      as written never ends. A negative daily or weekly interval moves the
      cursor back, so on this model's unbounded calendar the condition also
      keeps holding. */
  lemma {:induction false} StalledLoopNeverEnds(cur: Date, last: Date, kind: RepeatType, interval: int, n: nat)
    requires ValidDate(cur) && ValidDate(last) && NotAfter(cur, last)
    requires interval == 0 || (interval < 0 && kind in {Daily, Weekly})
    ensures NotAfter(Iterate(cur, kind, interval, n), last)
    ensures interval == 0 ==> Iterate(cur, kind, interval, n) == cur
    decreases n
  {
    if n > 0 {
      var next := Advance(kind, interval, cur);
      AdvanceStalls(kind, interval, cur);
      BeforeIffDayNumber(next, cur);
      BeforeIffDayNumber(cur, last);
      BeforeIffDayNumber(next, last);
      StalledLoopNeverEnds(next, last, kind, interval, n - 1);
    }
  }

  // ---------------------------------------------------------------------
  // createRepeatEvent with the code's generator
  // ---------------------------------------------------------------------

  /** The days `createRepeatEvent` posts, running the code's generator from
      the event's day to the clamped end. An end date that does not parse
      makes an invalid `Date`, for which neither `start > end` nor
      `start <= end` holds, so nothing is posted. */
  function RepeatDatesAsWritten(e: Event): (r: seq<Date>)
    requires ValidDate(e.date) && e.repeat.interval > 0
    ensures e.repeat.kind == NoRepeat ==> r == []
    ensures (e.repeat.endDate.Some? && e.repeat.endDate.value != ""
             && DateText.ParseDate(e.repeat.endDate.value).None?) ==> r == []
    ensures forall i :: 0 <= i < |r| ==> NotAfter(e.date, r[i]) && NotAfter(r[i], Recurrence.MaxEndDate)
    ensures Recurrence.StrictlyIncreasing(r)
  {
    match Recurrence.ClampedEnd(e.repeat.endDate)
    case None => []
    case Some(last) => GenerateAsWritten(e.date, last, e.repeat.interval, e.repeat.kind)
  }

  /** For daily and weekly events the hook posts the days the generator's
      unit tests describe. */
  lemma DayKindsPostAsSpecified(e: Event)
    requires ValidDate(e.date) && e.repeat.interval > 0 && e.repeat.kind in {Daily, Weekly}
    ensures RepeatDatesAsWritten(e) == Recurrence.RepeatDatesForEvent(e)
  {
    match Recurrence.ClampedEnd(e.repeat.endDate)
    case None =>
    case Some(last) => DailyAndWeeklyAsWrittenAreCorrect(e.date, last, e.repeat.interval, e.repeat.kind);
  }

  /** A monthly event on January 30th of a common year, ending March 30th:
      the hook posts March 2nd, where the tests' generator gives March 30th
      (`ParsesAsMarch30` gives such an end date for 2025). */
  lemma MonthlyEventRollsOver(e: Event, y: int)
    requires !IsLeap(y) && y <= 2025
    requires e.date == Date(y, 1, 30) && e.repeat.kind == Monthly && e.repeat.interval == 1
    requires e.repeat.endDate.Some? && DateText.ParseDate(e.repeat.endDate.value) == Some(Date(y, 3, 30))
    ensures RepeatDatesAsWritten(e) == [Date(y, 1, 30), Date(y, 3, 2)]
    ensures Recurrence.RepeatDatesForEvent(e) == [Date(y, 1, 30), Date(y, 3, 30)]
  {
    assert Recurrence.ClampedEnd(e.repeat.endDate) == Some(Date(y, 3, 30));
    MonthlyFromJanuary30AsWritten(y);
  }

  /** The end text '2025-03-30' reads as March 30th, 2025: the case of
      `MonthlyEventRollsOver` for the year 2025. */
  lemma ParsesAsMarch30()
    ensures DateText.ParseDate("2025-03-30") == Some(Date(2025, 3, 30))
  {
    DateText.ParseFormatRoundTrip(Date(2025, 3, 30));
    assert DateText.FormatDate(Date(2025, 3, 30)) == "2025-03-30";
  }
}

=== FILE: dates.dfy ===
/** Calendar days of the proleptic Gregorian calendar, their ordering and an
    ordinal day number used for day-granular arithmetic.

    The calendar code compares and advances JavaScript `Date` values that all
    sit at midnight UTC (the test setup pins the time zone to UTC), so a day
    (year, month, day) carries all the information the comparisons use. */
module Dates {

  import Arith

  /** A day; `month` is 1-based (January is 1) and `day` is the day of the month. */
  datatype Date = Date(year: int, month: int, day: int)

  /** Gregorian leap-year rule. */
  predicate IsLeap(y: int)
  {
    y % 4 == 0 && (y % 100 != 0 || y % 400 == 0)
  }

  function DaysInYear(y: int): int
  {
    if IsLeap(y) then 366 else 365
  }

  function DaysInMonth(y: int, m: int): (n: int)
    requires 1 <= m <= 12
    ensures 28 <= n <= 31
    ensures n == 29 <==> m == 2 && IsLeap(y)
    ensures n == 31 <==> m in {1, 3, 5, 7, 8, 10, 12}
  {
    if m == 2 then (if IsLeap(y) then 29 else 28)
    else if m == 4 || m == 6 || m == 9 || m == 11 then 30
    else 31
  }

  /** A real calendar day: there is no February 30 and no month 13. */
  predicate ValidDate(d: Date)
  {
    1 <= d.month <= 12 && 1 <= d.day <= DaysInMonth(d.year, d.month)
  }

  /** Chronological order of days: lexicographic on (year, month, day). */
  predicate Before(a: Date, b: Date)
  {
    a.year < b.year
    || (a.year == b.year && (a.month < b.month || (a.month == b.month && a.day < b.day)))
  }

  predicate NotAfter(a: Date, b: Date)
  {
    !Before(b, a)
  }

  /** The earlier of two days. */
  function MinDate(a: Date, b: Date): (r: Date)
    ensures r == a || r == b
    ensures NotAfter(r, a) && NotAfter(r, b)
  {
    if Before(b, a) then b else a
  }

  /** Index of the month of `d` counted from January of year 0. */
  function MonthIndex(d: Date): int
  {
    12 * d.year + d.month - 1
  }

  /** The day `day` of the month with the given month index; it may not be a
      real day (day 31 of a 30-day month), which callers check with ValidDate. */
  function DayOfMonthIndex(idx: int, day: int): (d: Date)
    ensures 1 <= d.month <= 12 && d.day == day
    ensures MonthIndex(d) == idx
  {
    Date(idx / 12, idx % 12 + 1, day)
  }

  lemma DayOfMonthIndexOfDate(d: Date)
    requires 1 <= d.month <= 12
    ensures DayOfMonthIndex(MonthIndex(d), d.day) == d
  {
    var idx := MonthIndex(d);
    assert idx == 12 * d.year + (d.month - 1);
    assert idx / 12 == d.year;
    assert idx % 12 == d.month - 1;
  }

  /** A later month index means a later day, whatever the days of the month. */
  lemma MonthIndexOrder(a: Date, b: Date)
    requires 1 <= a.month <= 12 && 1 <= b.month <= 12
    ensures MonthIndex(a) < MonthIndex(b) ==> Before(a, b)
    ensures NotAfter(a, b) ==> MonthIndex(a) <= MonthIndex(b)
  {
  }

  // ---------------------------------------------------------------------
  // Ordinal day numbers. Day number 0 is 0001-01-01; division is floor
  // division (Dafny's `/` on a positive divisor), so the formula also
  // holds for years before 1.
  // ---------------------------------------------------------------------

  /** Number of days from 0001-01-01 to January 1st of year `y`: 365 a year
      plus the leap days before it. */
  function DaysBeforeYear(y: int): int
  {
    var p := y - 1;
    365 * p + p / 4 - p / 100 + p / 400
  }

  /** Going from year `y` to `y + 1` adds one leap day to the count exactly when `y` is a leap year. */
  lemma LeapDaysStep(y: int)
    ensures var p := y - 1;
      (y / 4 - y / 100 + y / 400) - (p / 4 - p / 100 + p / 400) == (if IsLeap(y) then 1 else 0)
  {
    Arith.DivStep(y, 4);
    Arith.DivStep(y, 100);
    Arith.DivStep(y, 400);
    if y % 400 == 0 {
      Arith.MultipleOfProduct(y, 100, 4);
    }
    if y % 100 == 0 {
      Arith.MultipleOfProduct(y, 4, 25);
    }
  }

  /** Days of a common year before the first of month `m` (m = 13 gives the year length). */
  function CommonDaysBeforeMonth(m: int): int
    requires 1 <= m <= 13
  {
    [0, 31, 59, 90, 120, 151, 181, 212, 243, 273, 304, 334, 365][m - 1]
  }

  /** Days of year `y` before the first of month `m` (m = 13 gives the year length). */
  function DaysBeforeMonth(y: int, m: int): int
    requires 1 <= m <= 13
  {
    CommonDaysBeforeMonth(m) + (if m > 2 && IsLeap(y) then 1 else 0)
  }

  /** Ordinal number of a day; consecutive days have consecutive numbers. */
  function DayNumber(d: Date): int
    requires ValidDate(d)
  {
    DaysBeforeYear(d.year) + DaysBeforeMonth(d.year, d.month) + d.day - 1
  }

  lemma DaysBeforeNextYear(y: int)
    ensures DaysBeforeYear(y + 1) == DaysBeforeYear(y) + DaysInYear(y)
  {
    LeapDaysStep(y);
  }

  lemma {:induction false} DaysBeforeYearGrows(y1: int, y2: int)
    requires y1 < y2
    ensures DaysBeforeYear(y1) + DaysInYear(y1) <= DaysBeforeYear(y2)
    decreases y2 - y1
  {
    DaysBeforeNextYear(y1);
    if y1 + 1 < y2 {
      DaysBeforeYearGrows(y1 + 1, y2);
    }
  }

  lemma DaysBeforeMonthStep(y: int, m: int)
    requires 1 <= m <= 12
    ensures DaysBeforeMonth(y, m + 1) == DaysBeforeMonth(y, m) + DaysInMonth(y, m)
    ensures DaysBeforeMonth(y, 13) == DaysInYear(y)
  {
  }

  lemma DaysBeforeMonthGrows(y: int, m1: int, m2: int)
    requires 1 <= m1 < m2 <= 12
    ensures DaysBeforeMonth(y, m1) + DaysInMonth(y, m1) <= DaysBeforeMonth(y, m2)
  {
  }

  /** A day's number lies within its year's range of numbers. */
  lemma DayNumberInYear(d: Date)
    requires ValidDate(d)
    ensures DaysBeforeYear(d.year) <= DayNumber(d) < DaysBeforeYear(d.year) + DaysInYear(d.year)
  {
    DaysBeforeMonthStep(d.year, d.month);
    if d.month < 12 {
      DaysBeforeMonthGrows(d.year, d.month, 12);
      DaysBeforeMonthStep(d.year, 12);
    }
  }

  lemma DayNumberMonotone(a: Date, b: Date)
    requires ValidDate(a) && ValidDate(b)
    requires Before(a, b)
    ensures DayNumber(a) < DayNumber(b)
  {
    if a.year < b.year {
      DayNumberInYear(a);
      DayNumberInYear(b);
      DaysBeforeYearGrows(a.year, b.year);
    } else if a.month < b.month {
      DaysBeforeMonthGrows(a.year, a.month, b.month);
    }
  }

  /** The chronological order of real days is the order of their numbers. */
  lemma BeforeIffDayNumber(a: Date, b: Date)
    requires ValidDate(a) && ValidDate(b)
    ensures Before(a, b) <==> DayNumber(a) < DayNumber(b)
    ensures a == b <==> DayNumber(a) == DayNumber(b)
  {
    if Before(a, b) {
      DayNumberMonotone(a, b);
    } else if Before(b, a) {
      DayNumberMonotone(b, a);
    }
  }

  /** The day after `d`. */
  function NextDay(d: Date): (r: Date)
    requires ValidDate(d)
    ensures ValidDate(r)
    ensures DayNumber(r) == DayNumber(d) + 1
  {
    DaysBeforeMonthStep(d.year, d.month);
    if d.day < DaysInMonth(d.year, d.month) then
      Date(d.year, d.month, d.day + 1)
    else if d.month < 12 then
      Date(d.year, d.month + 1, 1)
    else
      DaysBeforeNextYear(d.year);
      Date(d.year + 1, 1, 1)
  }

  /** The day `n` days after `d` (JavaScript's `setDate(getDate() + n)` on a
      midnight-UTC date, for n >= 0). */
  function AddDays(d: Date, n: nat): (r: Date)
    requires ValidDate(d)
    ensures ValidDate(r)
    ensures DayNumber(r) == DayNumber(d) + n
    decreases n
  {
    if n == 0 then d else AddDays(NextDay(d), n - 1)
  }

  /** Day of the week, 0 = Sunday ... 6 = Saturday (JavaScript's `getDay`);
      0001-01-01 was a Monday. */
  function Weekday(d: Date): (w: int)
    requires ValidDate(d)
    ensures 0 <= w < 7
  {
    (DayNumber(d) + 1) % 7
  }

  /** Days that are a whole number of weeks apart fall on the same weekday. */
  lemma WeekdayOfWeeksLater(a: Date, b: Date, k: int)
    requires ValidDate(a) && ValidDate(b)
    requires DayNumber(b) == DayNumber(a) + 7 * k
    ensures Weekday(b) == Weekday(a)
  {
    Arith.ModAddMultiple(DayNumber(a) + 1, 7, k);
  }

  lemma WeekdayExample()
    ensures Weekday(Date(2025, 7, 1)) == 2
    ensures Weekday(Date(2025, 10, 1)) == 3
  {
  }
}

=== FILE: datetext.dfy ===
/** The `YYYY-MM-DD` text form of days: `formatDate` for output and the
    date-only form of `new Date(text)` for input. */
module DateText {

  import opened Wrappers
  import opened Dates
  import opened Text

  /** Years that have a four-digit `YYYY` form. */
  predicate FourDigitYear(d: Date)
  {
    0 <= d.year <= 9999
  }

  function TwoDigits(n: int): (s: string)
    requires 0 <= n < 100
    ensures |s| == 2
  {
    [DigitChar(n / 10), DigitChar(n % 10)]
  }

  function FourDigits(n: int): (s: string)
    requires 0 <= n < 10000
    ensures |s| == 4
  {
    TwoDigits(n / 100) + TwoDigits(n % 100)
  }

  /** `formatDate`: zero-padded year, month and day joined by '-'. */
  function FormatDate(d: Date): (s: string)
    requires ValidDate(d) && FourDigitYear(d)
    ensures |s| == 10 && s[4] == '-' && s[7] == '-'
  {
    FourDigits(d.year) + "-" + TwoDigits(d.month) + "-" + TwoDigits(d.day)
  }

  predicate AllDigits(s: string)
  {
    forall i :: 0 <= i < |s| ==> IsDigit(s[i])
  }

  /** The number written by a string of decimal digits. */
  function DigitsValue(s: string): (n: nat)
    requires AllDigits(s)
    decreases |s|
  {
    if |s| == 0 then 0 else DigitsValue(s[..|s| - 1]) * 10 + DigitValue(s[|s| - 1])
  }

  /** `new Date(text)` for the date-only ISO form: exactly `YYYY-MM-DD`
      naming a real day; anything else is an invalid date. */
  function ParseDate(s: string): (r: Option<Date>)
    ensures r.Some? ==> ValidDate(r.value) && FourDigitYear(r.value)
    ensures |s| != 10 ==> r.None?
  {
    if |s| == 10 && s[4] == '-' && s[7] == '-'
       && AllDigits(s[0..4]) && AllDigits(s[5..7]) && AllDigits(s[8..10]) then
      var d := Date(DigitsValue(s[0..4]), DigitsValue(s[5..7]), DigitsValue(s[8..10]));
      DigitsBound4(s[0..4]);
      if ValidDate(d) then Some(d) else None
    else
      None
  }

  lemma DigitsValueOne(s: string)
    requires |s| == 1 && AllDigits(s)
    ensures DigitsValue(s) == DigitValue(s[0])
  {
    assert s[..0] == [];
  }

  lemma DigitsValueTwo(s: string)
    requires |s| == 2 && AllDigits(s)
    ensures DigitsValue(s) == DigitValue(s[0]) * 10 + DigitValue(s[1])
  {
    DigitsValueOne(s[..1]);
  }

  lemma DigitsValueFour(s: string)
    requires |s| == 4 && AllDigits(s)
    ensures DigitsValue(s) == DigitsValue(s[..2]) * 100 + DigitsValue(s[2..])
  {
    DigitsValueTwo(s[..2]);
    DigitsValueTwo(s[2..]);
    assert s[..3][..2] == s[..2];
  }

  lemma DigitsBound4(s: string)
    requires |s| == 4 && AllDigits(s)
    ensures DigitsValue(s) < 10000
  {
    DigitsValueFour(s);
    DigitsValueTwo(s[..2]);
    DigitsValueTwo(s[2..]);
  }

  lemma FourDigitsValue(n: int)
    requires 0 <= n < 10000
    ensures AllDigits(FourDigits(n)) && DigitsValue(FourDigits(n)) == n
  {
    var s := FourDigits(n);
    TwoDigitsValue(n / 100);
    TwoDigitsValue(n % 100);
    assert s[..2] == TwoDigits(n / 100) && s[2..] == TwoDigits(n % 100);
    DigitsValueFour(s);
  }

  lemma TwoDigitsValue(n: int)
    requires 0 <= n < 100
    ensures AllDigits(TwoDigits(n)) && DigitsValue(TwoDigits(n)) == n
  {
    var s := TwoDigits(n);
    DigitRoundTrip(n / 10);
    DigitRoundTrip(n % 10);
    DigitsValueTwo(s);
  }

  /** Reading back a formatted day gives the day. */
  lemma ParseFormatRoundTrip(d: Date)
    requires ValidDate(d) && FourDigitYear(d)
    ensures ParseDate(FormatDate(d)) == Some(d)
  {
    var s := FormatDate(d);
    FourDigitsValue(d.year);
    TwoDigitsValue(d.month);
    TwoDigitsValue(d.day);
    assert s[0..4] == FourDigits(d.year);
    assert s[5..7] == TwoDigits(d.month);
    assert s[8..10] == TwoDigits(d.day);
  }

  lemma TwoDigitsOfValue(s: string)
    requires |s| == 2 && AllDigits(s)
    ensures DigitsValue(s) < 100 && TwoDigits(DigitsValue(s)) == s
  {
    DigitsValueTwo(s);
  }

  lemma FourDigitsOfValue(s: string)
    requires |s| == 4 && AllDigits(s)
    ensures DigitsValue(s) < 10000 && FourDigits(DigitsValue(s)) == s
  {
    DigitsValueFour(s);
    TwoDigitsOfValue(s[..2]);
    TwoDigitsOfValue(s[2..]);
    var v := DigitsValue(s);
    assert v / 100 == DigitsValue(s[..2]) && v % 100 == DigitsValue(s[2..]);
    assert s == s[..2] + s[2..];
  }

  /** Every text the parser accepts is the formatted form of what it read:
      there is exactly one accepted spelling of each day. */
  lemma FormatParseRoundTrip(s: string)
    requires ParseDate(s).Some?
    ensures FormatDate(ParseDate(s).value) == s
  {
    var d := ParseDate(s).value;
    FourDigitsOfValue(s[0..4]);
    TwoDigitsOfValue(s[5..7]);
    TwoDigitsOfValue(s[8..10]);
    assert s == s[0..4] + "-" + s[5..7] + "-" + s[8..10];
  }

  /** The texts the validators meet in practice. */
  lemma ParseExamples()
    ensures ParseDate("invalid-date").None?
    ensures ParseDate("2025-10-30") == Some(Date(2025, 10, 30))
  {
    ParseFormatRoundTrip(Date(2025, 10, 30));
    assert FormatDate(Date(2025, 10, 30)) == "2025-10-30";
  }

  /** A modelling choice: a day the month lacks is read as no date at all,
      where a JavaScript engine may roll it over into the next month. */
  lemma NoFebruary30()
    ensures ParseDate("2025-02-30").None?
  {
    var t := "2025-02-30";
    assert t[5..7] == "02" && t[8..10] == "30";
    DigitsValueTwo("02");
    DigitsValueTwo("30");
  }
}

=== FILE: eventfilter.dfy ===
/** `getFilteredEvents` and its helpers: a case-insensitive text search over
    an event's title, description and location, followed by a date-range
    filter for the displayed week or month. Both steps keep the input order. */
module EventFilter {

  import opened Dates
  import opened Events
  import opened Text
  import opened Seqs

  /** `containsTerm`: `term` occurs in `target`, both lower-cased. */
  function ContainsTerm(target: string, term: string): (r: bool)
    ensures r <==> exists i :: OccursAt(Lower(target), Lower(term), i)
    ensures |target| < |term| ==> !r
  {
    Includes(Lower(target), Lower(term))
  }

  /** The search matches an event when the term occurs in its title, its
      description or its location. */
  predicate MatchesTerm(e: Event, term: string)
  {
    ContainsTerm(e.title, term) || ContainsTerm(e.description, term) || ContainsTerm(e.location, term)
  }

  /** The empty term occurs in every text. */
  lemma EmptyTermMatches(target: string)
    ensures ContainsTerm(target, "")
  {
    assert OccursAt(Lower(target), Lower(""), 0);
  }

  /** The search ignores case on both sides: lower-casing the target or the
      term first changes nothing. */
  lemma ContainsTermIgnoresCase(target: string, term: string)
    ensures ContainsTerm(Lower(target), term) == ContainsTerm(target, term)
    ensures ContainsTerm(target, Lower(term)) == ContainsTerm(target, term)
  {
    LowerIdempotent(target);
    LowerIdempotent(term);
  }

  /** `MatchesTerm` and its negation as filter predicates. */
  function Matches(term: string): Event -> bool
  {
    (e: Event) => MatchesTerm(e, term)
  }

  function Misses(term: string): Event -> bool
  {
    (e: Event) => !MatchesTerm(e, term)
  }

  /** A capitalised term finds its small-letter occurrence: "MEETING"
      matches the title "Team Meeting". */
  lemma CapitalTermMatches()
    ensures ContainsTerm("Team Meeting", "MEETING")
    ensures ContainsTerm("MEETING", "meeting")
  {
    assert Lower("Team Meeting") == "team meeting";
    assert Lower("MEETING") == "meeting";
    assert Lower("meeting") == "meeting";
    assert OccursAt("team meeting", "meeting", 5);
    assert OccursAt("meeting", "meeting", 0);
  }

  /** `searchEvents`: the events the term matches, in their original order,
      each copy of a matching event kept. */
  function SearchEvents(events: seq<Event>, term: string): (r: seq<Event>)
    ensures forall e :: e in r <==> e in events && MatchesTerm(e, term)
    ensures IsSubsequence(r, events)
    ensures |r| == Count(events, Matches(term))
  {
    FilterLength(events, Matches(term), Misses(term));
    Filter(events, Matches(term))
  }

  /** An empty search term keeps every event. */
  lemma SearchEmptyTermKeepsAll(events: seq<Event>)
    ensures SearchEvents(events, "") == events
  {
    forall i | 0 <= i < |events|
      ensures MatchesTerm(events[i], "")
    {
      EmptyTermMatches(events[i].title);
    }
    FilterAllPass(events, Matches(""));
  }

  // ---------------------------------------------------------------------
  // Date ranges.
  // ---------------------------------------------------------------------

  /** `isDateInRange(date, start, end)`: inclusive on both ends. */
  predicate InRange(d: Date, start: Date, end: Date)
  {
    NotAfter(start, d) && NotAfter(d, end)
  }

  /** `InRange` on an event's day, and its negation, as filter predicates. */
  function Within(start: Date, end: Date): Event -> bool
  {
    (e: Event) => InRange(e.date, start, end)
  }

  function Outside(start: Date, end: Date): Event -> bool
  {
    (e: Event) => !InRange(e.date, start, end)
  }

  /** `filterEventsByDateRange`: the events dated within [start, end], in
      order, each copy of such an event kept. */
  function FilterByDateRange(events: seq<Event>, start: Date, end: Date): (r: seq<Event>)
    ensures forall e :: e in r <==> e in events && InRange(e.date, start, end)
    ensures IsSubsequence(r, events)
    ensures |r| == Count(events, Within(start, end))
  {
    FilterLength(events, Within(start, end), Outside(start, end));
    Filter(events, Within(start, end))
  }

  /** First day of the month of `ref` (`new Date(year, month, 1)`). */
  function MonthStart(ref: Date): Date
  {
    Date(ref.year, ref.month, 1)
  }

  /** Last day of the month of `ref` (`new Date(year, month + 1, 0)`, at the
      day's last instant, which at day granularity is that day). */
  function MonthEnd(ref: Date): Date
    requires 1 <= ref.month <= 12
  {
    Date(ref.year, ref.month, DaysInMonth(ref.year, ref.month))
  }

  /** `filterEventsByDateRangeAtMonth`: the events of the month of `ref`. The
      range check never looks past the year, month and day, so this holds for
      every event date, including ones that name no real day. */
  function FilterAtMonth(events: seq<Event>, ref: Date): (r: seq<Event>)
    requires 1 <= ref.month <= 12
    ensures forall e :: e in r <==>
      e in events && e.date.year == ref.year && e.date.month == ref.month
      && 1 <= e.date.day <= DaysInMonth(ref.year, ref.month)
    ensures IsSubsequence(r, events)
    ensures |r| == Count(events, Within(MonthStart(ref), MonthEnd(ref)))
  {
    FilterByDateRange(events, MonthStart(ref), MonthEnd(ref))
  }

  /** The month range holds exactly the real days of that month: its first
      and last day are in it, and the days just outside it are not. */
  lemma MonthRangeBoundaries(ref: Date)
    requires ValidDate(ref)
    ensures InRange(MonthStart(ref), MonthStart(ref), MonthEnd(ref))
    ensures InRange(MonthEnd(ref), MonthStart(ref), MonthEnd(ref))
    ensures forall d :: ValidDate(d) ==>
      (InRange(d, MonthStart(ref), MonthEnd(ref)) <==> d.year == ref.year && d.month == ref.month)
    ensures !InRange(NextDay(MonthEnd(ref)), MonthStart(ref), MonthEnd(ref))
    ensures forall d :: ValidDate(d) && NextDay(d) == MonthStart(ref) ==>
      !InRange(d, MonthStart(ref), MonthEnd(ref))
  {
  }

  /** The week window `getWeekDates(ref)`: seven days, of which the filter
      uses the first and the last. Which weekday a week starts on is decided
      by `getWeekDates`, which is not part of this model. */
  predicate IsWeek(weekDates: seq<Date>)
  {
    |weekDates| == 7
  }

  /** `filterEventsByDateRangeAtWeek`: the events dated within the window. */
  function FilterAtWeek(events: seq<Event>, weekDates: seq<Date>): (r: seq<Event>)
    requires IsWeek(weekDates)
    ensures forall e :: e in r <==> e in events && InRange(e.date, weekDates[0], weekDates[6])
    ensures IsSubsequence(r, events)
    ensures |r| == Count(events, Within(weekDates[0], weekDates[6]))
  {
    FilterByDateRange(events, weekDates[0], weekDates[6])
  }

  /** Events on either end of the week window are kept; an event one day
      before its first day or one day after its last day is not. */
  lemma WeekBoundaries(events: seq<Event>, weekDates: seq<Date>, e: Event)
    requires IsWeek(weekDates) && ValidDate(weekDates[0]) && ValidDate(weekDates[6])
    requires ValidDate(e.date) && e in events
    ensures e.date == weekDates[0] && NotAfter(weekDates[0], weekDates[6]) ==> e in FilterAtWeek(events, weekDates)
    ensures e.date == weekDates[6] && NotAfter(weekDates[0], weekDates[6]) ==> e in FilterAtWeek(events, weekDates)
    ensures NextDay(e.date) == weekDates[0] ==> e !in FilterAtWeek(events, weekDates)
    ensures e.date == NextDay(weekDates[6]) ==> e !in FilterAtWeek(events, weekDates)
  {
    BeforeIffDayNumber(e.date, weekDates[0]);
    BeforeIffDayNumber(weekDates[6], e.date);
  }

  // ---------------------------------------------------------------------
  // getFilteredEvents.
  // ---------------------------------------------------------------------

  /** The two views the calendar offers. */
  datatype View = WeekView | MonthView

  /** The days shown by a view: the week window or the month of `ref`. */
  predicate InView(d: Date, ref: Date, view: View, weekDates: seq<Date>)
    requires 1 <= ref.month <= 12 && IsWeek(weekDates)
  {
    match view
    case WeekView => InRange(d, weekDates[0], weekDates[6])
    case MonthView => InRange(d, MonthStart(ref), MonthEnd(ref))
  }

  /** `getFilteredEvents(events, term, ref, view)`: search first, then keep the
      events of the view. `weekDates` stands for `getWeekDates(ref)`. */
  function GetFilteredEvents(events: seq<Event>, term: string, ref: Date, view: View,
                             weekDates: seq<Date>): (r: seq<Event>)
    requires 1 <= ref.month <= 12 && IsWeek(weekDates)
    ensures forall e :: e in r <==> e in events && MatchesTerm(e, term) && InView(e.date, ref, view, weekDates)
    ensures IsSubsequence(r, events)
    ensures events == [] ==> r == []
  {
    var searched := SearchEvents(events, term);
    SubsequenceTrans(FilterByDateRangeOf(searched, ref, view, weekDates), searched, events);
    match view
    case WeekView => FilterAtWeek(searched, weekDates)
    case MonthView => FilterAtMonth(searched, ref)
  }

  /** The range filter of a view, on any list. */
  function FilterByDateRangeOf(events: seq<Event>, ref: Date, view: View, weekDates: seq<Date>): seq<Event>
    requires 1 <= ref.month <= 12 && IsWeek(weekDates)
  {
    match view
    case WeekView => FilterAtWeek(events, weekDates)
    case MonthView => FilterAtMonth(events, ref)
  }

  /** The range filter of a view is the filter by `InView`. */
  lemma ViewFilterIsFilter(events: seq<Event>, ref: Date, view: View, weekDates: seq<Date>)
    requires 1 <= ref.month <= 12 && IsWeek(weekDates)
    ensures FilterByDateRangeOf(events, ref, view, weekDates)
      == Filter(events, (e: Event) => InView(e.date, ref, view, weekDates))
  {
    var v := (e: Event) => InView(e.date, ref, view, weekDates);
    match view
    case WeekView =>
      FilterCongruent(events, Within(weekDates[0], weekDates[6]), v);
    case MonthView =>
      FilterCongruent(events, Within(MonthStart(ref), MonthEnd(ref)), v);
  }

  /** Searching and range-filtering is one filter by both conditions, and the
      two steps can be done in either order. */
  lemma GetFilteredIsOneFilter(events: seq<Event>, term: string, ref: Date, view: View, weekDates: seq<Date>)
    requires 1 <= ref.month <= 12 && IsWeek(weekDates)
    ensures GetFilteredEvents(events, term, ref, view, weekDates)
      == Filter(events, (e: Event) => MatchesTerm(e, term) && InView(e.date, ref, view, weekDates))
    ensures GetFilteredEvents(events, term, ref, view, weekDates)
      == SearchEvents(FilterByDateRangeOf(events, ref, view, weekDates), term)
  {
    var m := Matches(term);
    var v := (e: Event) => InView(e.date, ref, view, weekDates);
    var both := (e: Event) => MatchesTerm(e, term) && InView(e.date, ref, view, weekDates);
    ViewFilterIsFilter(Filter(events, m), ref, view, weekDates);
    ViewFilterIsFilter(events, ref, view, weekDates);
    FilterFilter(events, m, v, both);
    FilterFilter(events, v, m, both);
  }

  /** Filtering the result again with the same arguments changes nothing. */
  lemma GetFilteredIdempotent(events: seq<Event>, term: string, ref: Date, view: View, weekDates: seq<Date>)
    requires 1 <= ref.month <= 12 && IsWeek(weekDates)
    ensures var r := GetFilteredEvents(events, term, ref, view, weekDates);
      GetFilteredEvents(r, term, ref, view, weekDates) == r
  {
    var p := (e: Event) => MatchesTerm(e, term) && InView(e.date, ref, view, weekDates);
    var r := GetFilteredEvents(events, term, ref, view, weekDates);
    GetFilteredIsOneFilter(events, term, ref, view, weekDates);
    GetFilteredIsOneFilter(r, term, ref, view, weekDates);
    FilterIdempotent(events, p);
  }

  /** With an empty search term only the view decides. */
  lemma GetFilteredEmptyTerm(events: seq<Event>, ref: Date, view: View, weekDates: seq<Date>)
    requires 1 <= ref.month <= 12 && IsWeek(weekDates)
    ensures GetFilteredEvents(events, "", ref, view, weekDates) == FilterByDateRangeOf(events, ref, view, weekDates)
  {
    SearchEmptyTermKeepsAll(events);
  }
}

=== FILE: events.dfy ===
/** The event record shared by the generator, the filter and the repeat-list
    operations (the `Event` and `RepeatInfo` types of the calendar app). */
module Events {

  import opened Wrappers
  import opened Dates

  /** `RepeatType`: 'none' | 'daily' | 'weekly' | 'monthly' | 'yearly'. */
  datatype RepeatType = NoRepeat | Daily | Weekly | Monthly | Yearly

  /** The spelling of each repeat type in the app's data. */
  function TypeName(t: RepeatType): string
  {
    match t
    case NoRepeat => "none"
    case Daily => "daily"
    case Weekly => "weekly"
    case Monthly => "monthly"
    case Yearly => "yearly"
  }

  /** Membership of a text in the list of repeat-type names. */
  function ParseRepeatType(s: string): (r: Option<RepeatType>)
    ensures r.Some? ==> TypeName(r.value) == s
    ensures forall t :: s == TypeName(t) ==> r == Some(t)
  {
    if s == "none" then Some(NoRepeat)
    else if s == "daily" then Some(Daily)
    else if s == "weekly" then Some(Weekly)
    else if s == "monthly" then Some(Monthly)
    else if s == "yearly" then Some(Yearly)
    else None
  }

  /** `RepeatInfo`: the rule a recurring event was created with. The end
      date stays text, as stored. */
  datatype RepeatInfo = RepeatInfo(kind: RepeatType, interval: int, endDate: Option<string>)

  /** The repeat information of a one-off event: `{ type: 'none', interval: 0 }`. */
  const SingleRepeat := RepeatInfo(NoRepeat, 0, None)

  /** `Event`. The date is held as the day it names. */
  datatype Event = Event(
    id: string,
    title: string,
    date: Date,
    startTime: string,
    endTime: string,
    description: string,
    location: string,
    category: string,
    repeat: RepeatInfo,
    notificationTime: int)

  /** `Partial<Event>`: each field either set by the patch or left alone. */
  datatype EventPatch = EventPatch(
    id: Option<string>,
    title: Option<string>,
    date: Option<Date>,
    startTime: Option<string>,
    endTime: Option<string>,
    description: Option<string>,
    location: Option<string>,
    category: Option<string>,
    repeat: Option<RepeatInfo>,
    notificationTime: Option<int>)

  /** `{ ...e, ...p }`: every field the patch sets takes the patch's value,
      and every field it leaves unset keeps the value it had in `e`. */
  function ApplyPatch(e: Event, p: EventPatch): (r: Event)
    ensures (p.id.Some? ==> r.id == p.id.value) && (p.id.None? ==> r.id == e.id)
    ensures (p.title.Some? ==> r.title == p.title.value) && (p.title.None? ==> r.title == e.title)
    ensures (p.date.Some? ==> r.date == p.date.value) && (p.date.None? ==> r.date == e.date)
    ensures (p.startTime.Some? ==> r.startTime == p.startTime.value) && (p.startTime.None? ==> r.startTime == e.startTime)
    ensures (p.endTime.Some? ==> r.endTime == p.endTime.value) && (p.endTime.None? ==> r.endTime == e.endTime)
    ensures (p.description.Some? ==> r.description == p.description.value) && (p.description.None? ==> r.description == e.description)
    ensures (p.location.Some? ==> r.location == p.location.value) && (p.location.None? ==> r.location == e.location)
    ensures (p.category.Some? ==> r.category == p.category.value) && (p.category.None? ==> r.category == e.category)
    ensures (p.repeat.Some? ==> r.repeat == p.repeat.value) && (p.repeat.None? ==> r.repeat == e.repeat)
    ensures (p.notificationTime.Some? ==> r.notificationTime == p.notificationTime.value) && (p.notificationTime.None? ==> r.notificationTime == e.notificationTime)
    ensures p == EventPatch(None, None, None, None, None, None, None, None, None, None) ==> r == e
  {
    Event(
      p.id.GetOr(e.id),
      p.title.GetOr(e.title),
      p.date.GetOr(e.date),
      p.startTime.GetOr(e.startTime),
      p.endTime.GetOr(e.endTime),
      p.description.GetOr(e.description),
      p.location.GetOr(e.location),
      p.category.GetOr(e.category),
      p.repeat.GetOr(e.repeat),
      p.notificationTime.GetOr(e.notificationTime))
  }

  /** Applying the same patch twice is applying it once. */
  lemma ApplyPatchIdempotent(e: Event, p: EventPatch)
    ensures ApplyPatch(ApplyPatch(e, p), p) == ApplyPatch(e, p)
  {
  }
}

=== FILE: recurrence.dfy ===
/** `generateRepeatEvent`: the days on which a repeating event occurs, and the
    end-date clamp applied by the event-saving hook before calling it.

    The model follows the contract the unit tests state for the generator:
    arguments (start, interval, type, end?), an omitted end meaning
    `MAX_END_DATE`, an interval of 0 or less giving the start day alone, and
    monthly and yearly candidates that do not exist in their month or year
    skipped rather than rolled over. Each candidate is built explicitly as
    (year, month, day) from the start day; the code in
    src/utils/eventUtils.ts instead advances a mutable JavaScript `Date` with
    `setMonth`/`setFullYear`, which rolls over (module AsWritten). */
module Recurrence {

  import opened Wrappers
  import opened Dates
  import opened Events
  import opened DateText
  import Arith

  /** `MAX_END_DATE`: no repeat is generated past this day. */
  const MaxEndDate := Date(2025, 10, 30)

  /** The end the generator runs to: the given end, or `MAX_END_DATE`. */
  function EffectiveEnd(end: Option<Date>): Date
  {
    end.GetOr(MaxEndDate)
  }

  /** Every element is strictly later than all elements before it. */
  predicate StrictlyIncreasing(s: seq<Date>)
  {
    forall i, j :: 0 <= i < j < |s| ==> Before(s[i], s[j])
  }

  /** Days between consecutive daily or weekly occurrences. */
  function StepDays(kind: RepeatType, interval: int): int
  {
    if kind == Weekly then 7 * interval else interval
  }

  // ---------------------------------------------------------------------
  // Reference definition: which days a rule produces.
  // ---------------------------------------------------------------------

  /** Day `d` lies on the grid of the rule that starts at `start` and
      repeats every `k` days, weeks, months or years. */
  predicate Aligned(start: Date, k: int, kind: RepeatType, d: Date)
    requires ValidDate(start) && ValidDate(d) && k > 0
  {
    match kind
    case NoRepeat => d == start
    case Daily => (DayNumber(d) - DayNumber(start)) % k == 0
    case Weekly => (DayNumber(d) - DayNumber(start)) % (7 * k) == 0
    case Monthly => d.day == start.day && (MonthIndex(d) - MonthIndex(start)) % k == 0
    case Yearly =>
      d.month == start.month && d.day == start.day && (d.year - start.year) % k == 0
  }

  /** Day `d` is an occurrence: a real day between the start and the end,
      inclusive, on the rule's grid. */
  predicate Occurs(start: Date, k: int, kind: RepeatType, last: Date, d: Date)
    requires ValidDate(start) && k > 0
  {
    ValidDate(d) && NotAfter(start, d) && NotAfter(d, last) && Aligned(start, k, kind, d)
  }

  // ---------------------------------------------------------------------
  // Daily and weekly: advance by a fixed number of days.
  // ---------------------------------------------------------------------

  /** `d` is one of cur, cur + step, cur + 2*step, ... and not after `last`. */
  predicate InDayRun(cur: Date, step: int, last: Date, d: Date)
    requires ValidDate(cur) && ValidDate(last) && step > 0
  {
    ValidDate(d) && DayNumber(cur) <= DayNumber(d) <= DayNumber(last)
    && (DayNumber(d) - DayNumber(cur)) % step == 0
  }

  /** `cur`, `cur + step`, `cur + 2*step`, ... up to `last` inclusive. What
      the run contains is stated by DayStepsFacts. */
  function DayStepsFrom(cur: Date, step: int, last: Date): (r: seq<Date>)
    requires ValidDate(cur) && ValidDate(last) && step > 0
    ensures forall i :: 0 <= i < |r| ==> ValidDate(r[i])
    decreases DayNumber(last) - DayNumber(cur)
  {
    if DayNumber(last) < DayNumber(cur) then
      []
    else
      [cur] + DayStepsFrom(AddDays(cur, step), step, last)
  }

  /** A run starts at `cur`, keeps `step` days between neighbours, stops
      within one step of `last`, and holds exactly the days on the grid from
      `cur` up to `last`. */
  lemma {:induction false} DayStepsFacts(cur: Date, step: int, last: Date)
    requires ValidDate(cur) && ValidDate(last) && step > 0
    ensures var r := DayStepsFrom(cur, step, last);
      && (DayNumber(last) < DayNumber(cur) ==> r == [])
      && (DayNumber(cur) <= DayNumber(last) ==> r != [] && r[0] == cur)
      && (forall i :: 0 <= i < |r| - 1 ==> DayNumber(r[i + 1]) == DayNumber(r[i]) + step)
      && (r != [] ==> DayNumber(r[|r| - 1]) <= DayNumber(last) < DayNumber(r[|r| - 1]) + step)
      && (forall d :: d in r <==> InDayRun(cur, step, last, d))
    decreases DayNumber(last) - DayNumber(cur)
  {
    if DayNumber(cur) <= DayNumber(last) {
      var next := AddDays(cur, step);
      var rest := DayStepsFrom(next, step, last);
      DayStepsUnfold(cur, step, last);
      DayStepsFacts(next, step, last);
      DayStepsConsSpacing(cur, step, rest);
      DayStepsConsMembership(cur, next, step, last, rest);
    } else {
      forall d
        ensures !InDayRun(cur, step, last, d)
      {
      }
    }
  }

  /** A run has one element for `cur` and one for each whole step that fits before `last`. */
  lemma {:induction false} DayStepsLength(cur: Date, step: int, last: Date)
    requires ValidDate(cur) && ValidDate(last) && step > 0
    ensures |DayStepsFrom(cur, step, last)| == GridCount(DayNumber(cur), DayNumber(last), step)
    decreases DayNumber(last) - DayNumber(cur)
  {
    if DayNumber(cur) <= DayNumber(last) {
      var next := AddDays(cur, step);
      DayStepsUnfold(cur, step, last);
      DayStepsLength(next, step, last);
      GridCountStep(DayNumber(cur), DayNumber(next), DayNumber(last), step,
                    |DayStepsFrom(cur, step, last)|, |DayStepsFrom(next, step, last)|);
    }
  }

  /** How many of c, c + step, c + 2*step, ... are at most `l`. */
  function GridCount(c: int, l: int, step: int): nat
    requires step > 0
    decreases l - c
  {
    if l < c then 0 else 1 + GridCount(c + step, l, step)
  }

  lemma GridCountStep(c: int, n: int, l: int, step: int, len: nat, rest: nat)
    requires step > 0 && n == c + step && c <= l
    requires len == rest + 1 && rest == GridCount(n, l, step)
    ensures len == GridCount(c, l, step)
  {
  }

  lemma GridCountOfSpan(c: int, l: int, step: int, len: nat)
    requires step > 0 && c <= l && len == GridCount(c, l, step)
    ensures len == (l - c) / step + 1
  {
    GridCountClosedForm(c, l, step);
  }

  /** The count in closed form: one more than the whole steps from `c` to `l`. */
  lemma {:induction false} GridCountClosedForm(c: int, l: int, step: int)
    requires step > 0
    ensures GridCount(c, l, step) == if l < c then 0 else (l - c) / step + 1
    decreases l - c
  {
    if c <= l {
      GridCountClosedForm(c + step, l, step);
      StepCount(c, c + step, l, step, GridCount(c + step, l, step));
    }
  }

  lemma DayStepsUnfold(cur: Date, step: int, last: Date)
    requires ValidDate(cur) && ValidDate(last) && step > 0
    requires DayNumber(cur) <= DayNumber(last)
    ensures DayStepsFrom(cur, step, last) == [cur] + DayStepsFrom(AddDays(cur, step), step, last)
  {
  }

  /** Consecutive elements of a run stay `step` days apart when `cur` is put in front. */
  lemma DayStepsConsSpacing(cur: Date, step: int, rest: seq<Date>)
    requires ValidDate(cur) && forall i :: 0 <= i < |rest| ==> ValidDate(rest[i])
    requires rest != [] ==> DayNumber(rest[0]) == DayNumber(cur) + step
    requires forall i :: 0 <= i < |rest| - 1 ==> DayNumber(rest[i + 1]) == DayNumber(rest[i]) + step
    ensures forall i :: 0 <= i < |[cur] + rest| - 1 ==>
      DayNumber(([cur] + rest)[i + 1]) == DayNumber(([cur] + rest)[i]) + step
  {
    var r := [cur] + rest;
    forall i | 0 <= i < |r| - 1
      ensures DayNumber(r[i + 1]) == DayNumber(r[i]) + step
    {
      if i > 0 {
        assert r[i] == rest[i - 1] && r[i + 1] == rest[i];
      }
    }
  }

  /** The days of a run from `cur` are `cur` and the days of the run from `cur + step`. */
  lemma DayStepsConsMembership(cur: Date, next: Date, step: int, last: Date, rest: seq<Date>)
    requires ValidDate(cur) && ValidDate(next) && ValidDate(last) && step > 0
    requires DayNumber(next) == DayNumber(cur) + step
    requires DayNumber(cur) <= DayNumber(last)
    requires forall d :: d in rest <==> InDayRun(next, step, last, d)
    ensures forall d :: d in [cur] + rest <==> InDayRun(cur, step, last, d)
  {
    var c, n, l := DayNumber(cur), DayNumber(next), DayNumber(last);
    forall d | ValidDate(d)
      ensures d in [cur] + rest <==> InDayRun(cur, step, last, d)
    {
      var x := DayNumber(d);
      BeforeIffDayNumber(d, cur);
      StepMember(c, n, x, l, step);
    }
  }

  /** The count of a run, on day numbers. */
  lemma StepCount(c: int, n: int, l: int, step: int, len: nat)
    requires step > 0 && n == c + step && c <= l
    requires l < n ==> len == 0
    requires n <= l ==> len == (l - n) / step + 1
    ensures len + 1 == (l - c) / step + 1
  {
    if l - c < step {
      Arith.SmallIsItsOwnRemainder(l - c, step);
    } else {
      Arith.ModStep(l - c, step);
    }
  }

  /** Membership in a run, on day numbers: `x` is `c` or on the grid from `n = c + step`. */
  lemma StepMember(c: int, n: int, x: int, l: int, step: int)
    requires step > 0 && n == c + step
    ensures (c <= x <= l && (x - c) % step == 0)
        <==> (x == c && c <= l) || (n <= x <= l && (x - n) % step == 0)
  {
    Arith.ModStep(x - c, step);
    if c < x < n {
      Arith.SmallIsItsOwnRemainder(x - c, step);
    }
  }

  // ---------------------------------------------------------------------
  // Monthly: the start's day of the month in every k-th month.
  // ---------------------------------------------------------------------

  /** `d` is the day `day` of one of the months idx, idx + k, ... and not after `last`. */
  predicate InMonthRun(idx: int, day: int, k: int, last: Date, d: Date)
    requires k > 0
  {
    ValidDate(d) && d.day == day && idx <= MonthIndex(d) && (MonthIndex(d) - idx) % k == 0
    && NotAfter(d, last)
  }

  /** Candidates are the day `day` of the months idx, idx + k, idx + 2k, ...
      up to the month of `last`; a candidate that is not a real day (the
      31st of a 30-day month, February 29th of a common year) is skipped,
      and the next candidate is still taken from the month grid, not from the
      skipped one. */
  function MonthStepsFrom(idx: int, day: int, k: int, last: Date): (r: seq<Date>)
    requires k > 0 && ValidDate(last)
    ensures forall d :: d in r <==> InMonthRun(idx, day, k, last, d)
    ensures forall i, j :: 0 <= i < j < |r| ==> MonthIndex(r[i]) < MonthIndex(r[j])
    decreases MonthIndex(last) - idx
  {
    if idx > MonthIndex(last) then
      PastLastMonth(idx, day, k, last);
      []
    else
      var c := DayOfMonthIndex(idx, day);
      var head := if ValidDate(c) && NotAfter(c, last) then [c] else [];
      var rest := MonthStepsFrom(idx + k, day, k, last);
      MonthStepsConsMembership(idx, day, k, last, head, rest);
      MonthStepsConsOrder(idx, day, k, last, head, rest);
      head + rest
  }

  lemma PastLastMonth(idx: int, day: int, k: int, last: Date)
    requires k > 0 && ValidDate(last) && idx > MonthIndex(last)
    ensures forall d :: !InMonthRun(idx, day, k, last, d)
  {
    forall d | ValidDate(d) && NotAfter(d, last)
      ensures MonthIndex(d) < idx
    {
      MonthIndexOrder(d, last);
    }
  }

  /** The days of the run from month `idx` are its candidate, when kept, and
      the days of the run from month `idx + k`. */
  lemma MonthStepsConsMembership(idx: int, day: int, k: int, last: Date, head: seq<Date>, rest: seq<Date>)
    requires k > 0 && ValidDate(last)
    requires head == (if ValidDate(DayOfMonthIndex(idx, day)) && NotAfter(DayOfMonthIndex(idx, day), last)
                      then [DayOfMonthIndex(idx, day)] else [])
    requires forall d :: d in rest <==> InMonthRun(idx + k, day, k, last, d)
    ensures forall d :: d in head + rest <==> InMonthRun(idx, day, k, last, d)
  {
    forall d
      ensures d in head + rest <==> InMonthRun(idx, day, k, last, d)
    {
      if ValidDate(d) && d.day == day {
        StepMember(idx, idx + k, MonthIndex(d), MonthIndex(d), k);
        if MonthIndex(d) == idx {
          DayOfMonthIndexOfDate(d);
        }
      }
    }
  }

  /** The candidate of month `idx` comes before every day of the run from month `idx + k`. */
  lemma MonthStepsConsOrder(idx: int, day: int, k: int, last: Date, head: seq<Date>, rest: seq<Date>)
    requires k > 0
    requires head == [] || head == [DayOfMonthIndex(idx, day)]
    requires forall d :: d in rest ==> idx + k <= MonthIndex(d)
    requires forall i, j :: 0 <= i < j < |rest| ==> MonthIndex(rest[i]) < MonthIndex(rest[j])
    ensures forall i, j :: 0 <= i < j < |head + rest| ==>
      MonthIndex((head + rest)[i]) < MonthIndex((head + rest)[j])
  {
    var r := head + rest;
    forall i, j | 0 <= i < j < |r|
      ensures MonthIndex(r[i]) < MonthIndex(r[j])
    {
      assert r[j] == rest[j - |head|];
      if i >= |head| {
        assert r[i] == rest[i - |head|];
      } else {
        assert rest[j - |head|] in rest;
      }
    }
  }

  // ---------------------------------------------------------------------
  // Yearly: the start's month and day in every k-th year.
  // ---------------------------------------------------------------------

  /** `d` is (y', month, day) for one of the years y, y + k, ... and not after `last`. */
  predicate InYearRun(y: int, month: int, day: int, k: int, last: Date, d: Date)
    requires k > 0
  {
    ValidDate(d) && d.month == month && d.day == day && y <= d.year && (d.year - y) % k == 0
    && NotAfter(d, last)
  }

  /** Candidates are (y, month, day), (y + k, month, day), ... up to the year
      of `last`; February 29th in a common year is skipped. */
  function YearStepsFrom(y: int, month: int, day: int, k: int, last: Date): (r: seq<Date>)
    requires 1 <= month <= 12 && k > 0 && ValidDate(last)
    ensures forall d :: d in r <==> InYearRun(y, month, day, k, last, d)
    ensures forall i, j :: 0 <= i < j < |r| ==> r[i].year < r[j].year
    decreases last.year - y
  {
    if y > last.year then
      []
    else
      var c := Date(y, month, day);
      var head := if ValidDate(c) && NotAfter(c, last) then [c] else [];
      var rest := YearStepsFrom(y + k, month, day, k, last);
      YearStepsConsMembership(y, month, day, k, last, head, rest);
      YearStepsConsOrder(y, month, day, k, head, rest);
      head + rest
  }

  /** The days of the run from year `y` are its candidate, when kept, and the
      days of the run from year `y + k`. */
  lemma YearStepsConsMembership(y: int, month: int, day: int, k: int, last: Date,
                                head: seq<Date>, rest: seq<Date>)
    requires 1 <= month <= 12 && k > 0 && ValidDate(last)
    requires head == (if ValidDate(Date(y, month, day)) && NotAfter(Date(y, month, day), last)
                      then [Date(y, month, day)] else [])
    requires forall d :: d in rest <==> InYearRun(y + k, month, day, k, last, d)
    ensures forall d :: d in head + rest <==> InYearRun(y, month, day, k, last, d)
  {
    forall d
      ensures d in head + rest <==> InYearRun(y, month, day, k, last, d)
    {
      StepMember(y, y + k, d.year, d.year, k);
    }
  }

  /** The candidate of year `y` comes before every day of the run from year `y + k`. */
  lemma YearStepsConsOrder(y: int, month: int, day: int, k: int, head: seq<Date>, rest: seq<Date>)
    requires k > 0
    requires head == [] || head == [Date(y, month, day)]
    requires forall d :: d in rest ==> y + k <= d.year
    requires forall i, j :: 0 <= i < j < |rest| ==> rest[i].year < rest[j].year
    ensures forall i, j :: 0 <= i < j < |head + rest| ==> (head + rest)[i].year < (head + rest)[j].year
  {
    var r := head + rest;
    forall i, j | 0 <= i < j < |r|
      ensures r[i].year < r[j].year
    {
      assert r[j] == rest[j - |head|];
      if i >= |head| {
        assert r[i] == rest[i - |head|];
      } else {
        assert rest[j - |head|] in rest;
      }
    }
  }

  // ---------------------------------------------------------------------
  // The generator.
  // ---------------------------------------------------------------------

  /** `generateRepeatEvent(start, interval, type, end?)`. Only repeating types
      reach it: the saving hook sends events whose type is 'none' down the
      single-event path. */
  function Generate(start: Date, interval: int, kind: RepeatType, end: Option<Date>): (r: seq<Date>)
    requires ValidDate(start) && kind != NoRepeat
    requires end.Some? ==> ValidDate(end.value)
    ensures Before(EffectiveEnd(end), start) ==> r == []
    ensures NotAfter(start, EffectiveEnd(end)) ==> r != [] && r[0] == start
    ensures NotAfter(start, EffectiveEnd(end)) && interval <= 0 ==> r == [start]
    ensures StrictlyIncreasing(r)
    ensures forall i :: 0 <= i < |r| ==>
      ValidDate(r[i]) && NotAfter(start, r[i]) && NotAfter(r[i], EffectiveEnd(end))
    ensures interval > 0 ==>
      forall d :: d in r <==> Occurs(start, interval, kind, EffectiveEnd(end), d)
    ensures kind == Monthly ==> forall i :: 0 <= i < |r| ==> r[i].day == start.day
    ensures kind == Yearly ==>
      forall i :: 0 <= i < |r| ==> r[i].month == start.month && r[i].day == start.day
  {
    var last := EffectiveEnd(end);
    if Before(last, start) then
      []
    else if interval <= 0 then
      [start]
    else
      match kind
      case Daily => DayRun(start, interval, kind, last)
      case Weekly => DayRun(start, interval, kind, last)
      case Monthly => MonthRun(start, interval, last)
      case Yearly => YearRun(start, interval, last)
  }

  /** The daily or weekly occurrences from `start` to `last`: every
      `interval`-th day, or every `interval`-th week. */
  function DayRun(start: Date, interval: int, kind: RepeatType, last: Date): (r: seq<Date>)
    requires ValidDate(start) && ValidDate(last) && interval > 0 && (kind == Daily || kind == Weekly)
    requires NotAfter(start, last)
    ensures r != [] && r[0] == start
    ensures StrictlyIncreasing(r)
    ensures forall i :: 0 <= i < |r| ==> ValidDate(r[i]) && NotAfter(start, r[i]) && NotAfter(r[i], last)
    ensures forall d :: d in r <==> Occurs(start, interval, kind, last, d)
    ensures forall i :: 0 <= i < |r| - 1 ==> DayNumber(r[i + 1]) == DayNumber(r[i]) + StepDays(kind, interval)
    ensures DayNumber(last) < DayNumber(r[|r| - 1]) + StepDays(kind, interval)
  {
    var r := DayStepsFrom(start, StepDays(kind, interval), last);
    DayStepsFacts(start, StepDays(kind, interval), last);
    DayStepsMeaning(start, interval, kind, last, r);
    r
  }

  /** The number of daily or weekly occurrences is the number of whole steps
      from the start to the end, plus one. */
  lemma DayRunLength(start: Date, interval: int, kind: RepeatType, last: Date)
    requires ValidDate(start) && ValidDate(last) && interval > 0 && (kind == Daily || kind == Weekly)
    requires NotAfter(start, last)
    ensures |DayRun(start, interval, kind, last)|
      == (DayNumber(last) - DayNumber(start)) / StepDays(kind, interval) + 1
  {
    DayStepsSpanLength(start, StepDays(kind, interval), last);
  }

  lemma DayStepsSpanLength(cur: Date, step: int, last: Date)
    requires ValidDate(cur) && ValidDate(last) && step > 0 && NotAfter(cur, last)
    ensures |DayStepsFrom(cur, step, last)| == (DayNumber(last) - DayNumber(cur)) / step + 1
  {
    BeforeIffDayNumber(last, cur);
    DayStepsLength(cur, step, last);
    GridCountOfSpan(DayNumber(cur), DayNumber(last), step, |DayStepsFrom(cur, step, last)|);
  }

  /** The monthly occurrences from `start` to `last`. */
  function MonthRun(start: Date, interval: int, last: Date): (r: seq<Date>)
    requires ValidDate(start) && ValidDate(last) && interval > 0
    requires NotAfter(start, last)
    ensures r != [] && r[0] == start
    ensures StrictlyIncreasing(r)
    ensures forall i :: 0 <= i < |r| ==> ValidDate(r[i]) && NotAfter(start, r[i]) && NotAfter(r[i], last)
    ensures forall d :: d in r <==> Occurs(start, interval, Monthly, last, d)
    ensures forall i :: 0 <= i < |r| ==> r[i].day == start.day
  {
    var r := MonthStepsFrom(MonthIndex(start), start.day, interval, last);
    MonthStepsMeaning(start, interval, last, r);
    r
  }

  /** The yearly occurrences from `start` to `last`. */
  function YearRun(start: Date, interval: int, last: Date): (r: seq<Date>)
    requires ValidDate(start) && ValidDate(last) && interval > 0
    requires NotAfter(start, last)
    ensures r != [] && r[0] == start
    ensures StrictlyIncreasing(r)
    ensures forall i :: 0 <= i < |r| ==> ValidDate(r[i]) && NotAfter(start, r[i]) && NotAfter(r[i], last)
    ensures forall d :: d in r <==> Occurs(start, interval, Yearly, last, d)
    ensures forall i :: 0 <= i < |r| ==> r[i].month == start.month && r[i].day == start.day
  {
    var r := YearStepsFrom(start.year, start.month, start.day, interval, last);
    YearStepsMeaning(start, interval, last, r);
    r
  }

  /** Day-number facts about a daily or weekly run, restated as facts about days. */
  lemma DayStepsMeaning(start: Date, interval: int, kind: RepeatType, last: Date, r: seq<Date>)
    requires ValidDate(start) && ValidDate(last) && interval > 0 && (kind == Daily || kind == Weekly)
    requires NotAfter(start, last)
    requires r == DayStepsFrom(start, StepDays(kind, interval), last)
    ensures r != [] && r[0] == start
    ensures StrictlyIncreasing(r)
    ensures forall i :: 0 <= i < |r| ==> ValidDate(r[i]) && NotAfter(start, r[i]) && NotAfter(r[i], last)
    ensures forall d :: d in r <==> Occurs(start, interval, kind, last, d)
    ensures DayNumber(last) < DayNumber(r[|r| - 1]) + StepDays(kind, interval)
  {
    BeforeIffDayNumber(last, start);
    DayStepsFacts(start, StepDays(kind, interval), last);
    DayStepsIncreasing(r, StepDays(kind, interval));
    DayRunIsOccurrence(start, interval, kind, last);
    forall i | 0 <= i < |r|
      ensures ValidDate(r[i]) && NotAfter(start, r[i]) && NotAfter(r[i], last)
    {
      assert r[i] in r;
    }
  }

  /** A run whose elements are `step` days apart is strictly increasing. */
  lemma DayStepsIncreasing(r: seq<Date>, step: int)
    requires step > 0
    requires forall n :: 0 <= n < |r| ==> ValidDate(r[n])
    requires forall n :: 0 <= n < |r| - 1 ==> DayNumber(r[n + 1]) == DayNumber(r[n]) + step
    ensures StrictlyIncreasing(r)
  {
    forall i, j | 0 <= i < j < |r|
      ensures Before(r[i], r[j])
    {
      IncreasingBySteps(r, step, i, j);
      BeforeIffDayNumber(r[i], r[j]);
    }
  }

  /** Being on the day grid from `start` is being an occurrence of the daily or weekly rule. */
  lemma DayRunIsOccurrence(start: Date, interval: int, kind: RepeatType, last: Date)
    requires ValidDate(start) && ValidDate(last) && interval > 0 && (kind == Daily || kind == Weekly)
    ensures forall d :: InDayRun(start, StepDays(kind, interval), last, d) <==> Occurs(start, interval, kind, last, d)
  {
    forall d | ValidDate(d)
      ensures InDayRun(start, StepDays(kind, interval), last, d) <==> Occurs(start, interval, kind, last, d)
    {
      BeforeIffDayNumber(d, start);
      BeforeIffDayNumber(last, d);
    }
  }

  lemma {:induction false} IncreasingBySteps(r: seq<Date>, step: int, i: int, j: int)
    requires step > 0
    requires forall n :: 0 <= n < |r| ==> ValidDate(r[n])
    requires forall n :: 0 <= n < |r| - 1 ==> DayNumber(r[n + 1]) == DayNumber(r[n]) + step
    requires 0 <= i < j < |r|
    ensures DayNumber(r[i]) < DayNumber(r[j])
    decreases j - i
  {
    if i + 1 < j {
      IncreasingBySteps(r, step, i + 1, j);
    }
  }

  lemma MonthStepsMeaning(start: Date, interval: int, last: Date, r: seq<Date>)
    requires ValidDate(start) && ValidDate(last) && interval > 0
    requires NotAfter(start, last)
    requires r == MonthStepsFrom(MonthIndex(start), start.day, interval, last)
    ensures r != [] && r[0] == start
    ensures StrictlyIncreasing(r)
    ensures forall i :: 0 <= i < |r| ==> ValidDate(r[i]) && NotAfter(start, r[i]) && NotAfter(r[i], last)
    ensures forall d :: d in r <==> Occurs(start, interval, Monthly, last, d)
    ensures forall i :: 0 <= i < |r| ==> r[i].day == start.day
  {
    forall d | ValidDate(d) && d.day == start.day
      ensures MonthIndex(start) <= MonthIndex(d) <==> NotAfter(start, d)
    {
      MonthIndexOrder(start, d);
      MonthIndexOrder(d, start);
      if MonthIndex(start) == MonthIndex(d) {
        DayOfMonthIndexOfDate(start);
        DayOfMonthIndexOfDate(d);
      }
    }
    forall d
      ensures d in r <==> Occurs(start, interval, Monthly, last, d)
    {
    }
    forall i | 0 <= i < |r|
      ensures ValidDate(r[i]) && NotAfter(start, r[i]) && NotAfter(r[i], last) && r[i].day == start.day
    {
      assert r[i] in r;
    }
    forall i, j | 0 <= i < j < |r|
      ensures Before(r[i], r[j])
    {
      MonthIndexOrder(r[i], r[j]);
    }
    assert start in r;
    forall k | 0 <= k < |r|
      ensures MonthIndex(r[0]) <= MonthIndex(r[k])
    {
    }
    DayOfMonthIndexOfDate(start);
    DayOfMonthIndexOfDate(r[0]);
  }

  lemma YearStepsMeaning(start: Date, interval: int, last: Date, r: seq<Date>)
    requires ValidDate(start) && ValidDate(last) && interval > 0
    requires NotAfter(start, last)
    requires r == YearStepsFrom(start.year, start.month, start.day, interval, last)
    ensures r != [] && r[0] == start
    ensures StrictlyIncreasing(r)
    ensures forall i :: 0 <= i < |r| ==> ValidDate(r[i]) && NotAfter(start, r[i]) && NotAfter(r[i], last)
    ensures forall d :: d in r <==> Occurs(start, interval, Yearly, last, d)
    ensures forall i :: 0 <= i < |r| ==> r[i].month == start.month && r[i].day == start.day
  {
    assert start in r;
    forall k | 0 <= k < |r|
      ensures r[0].year <= r[k].year
    {
    }
    forall i | 0 <= i < |r|
      ensures ValidDate(r[i]) && NotAfter(start, r[i]) && NotAfter(r[i], last)
      ensures r[i].month == start.month && r[i].day == start.day
    {
      assert r[i] in r;
    }
  }

  // ---------------------------------------------------------------------
  // Properties of the generator.
  // ---------------------------------------------------------------------

  /** Two strictly increasing sequences with the same elements are equal. */
  lemma {:induction false} IncreasingSameElements(a: seq<Date>, b: seq<Date>)
    requires StrictlyIncreasing(a) && StrictlyIncreasing(b)
    requires forall d :: d in a <==> d in b
    ensures a == b
    decreases |a|
  {
    if a != [] {
      assert a[0] in b;
    }
    if b != [] {
      assert b[0] in a;
    }
    if a != [] && b != [] {
      forall j | 0 <= j < |b|
        ensures NotAfter(b[0], b[j])
      {
      }
      forall i | 0 <= i < |a|
        ensures NotAfter(a[0], a[i])
      {
      }
      assert a[0] in b && b[0] in a;
      assert a[0] == b[0];
      forall d
        ensures d in a[1..] <==> d in b[1..]
      {
        if d in a[1..] {
          var i :| 1 <= i < |a| && a[i] == d;
          assert Before(a[0], d);
          assert d in b;
          var j :| 0 <= j < |b| && b[j] == d;
          assert j != 0;
          assert b[1..][j - 1] == d;
        }
        if d in b[1..] {
          var j :| 1 <= j < |b| && b[j] == d;
          assert Before(b[0], d);
          assert d in a;
          var i :| 0 <= i < |a| && a[i] == d;
          assert i != 0;
          assert a[1..][i - 1] == d;
        }
      }
      IncreasingSameElements(a[1..], b[1..]);
      assert a == [a[0]] + a[1..] && b == [b[0]] + b[1..];
    }
  }

  /** The occurrences determine the output: any strictly increasing list of
      exactly the occurrences of a rule is what the generator returns. */
  lemma GenerateIsTheOccurrences(start: Date, interval: int, kind: RepeatType, end: Option<Date>,
                                 s: seq<Date>)
    requires ValidDate(start) && kind != NoRepeat && interval > 0
    requires end.Some? ==> ValidDate(end.value)
    requires StrictlyIncreasing(s)
    requires forall d :: d in s <==> Occurs(start, interval, kind, EffectiveEnd(end), d)
    ensures Generate(start, interval, kind, end) == s
  {
    IncreasingSameElements(Generate(start, interval, kind, end), s);
  }

  /** For a repeating rule with a positive interval whose start is not after
      the end, the generator is the run of its kind. */
  lemma GenerateIsRun(start: Date, interval: int, kind: RepeatType, end: Option<Date>)
    requires ValidDate(start) && kind != NoRepeat && interval > 0
    requires end.Some? ==> ValidDate(end.value)
    requires NotAfter(start, EffectiveEnd(end))
    ensures var last := EffectiveEnd(end);
      Generate(start, interval, kind, end)
      == match kind
         case Daily => DayRun(start, interval, kind, last)
         case Weekly => DayRun(start, interval, kind, last)
         case Monthly => MonthRun(start, interval, last)
         case Yearly => YearRun(start, interval, last)
  {
  }

  /** Weekly occurrences all fall on the start's weekday. */
  lemma WeeklyKeepsWeekday(start: Date, interval: int, end: Option<Date>)
    requires ValidDate(start) && interval > 0
    requires end.Some? ==> ValidDate(end.value)
    ensures var r := Generate(start, interval, Weekly, end);
      forall i :: 0 <= i < |r| ==> Weekday(r[i]) == Weekday(start)
  {
    if NotAfter(start, EffectiveEnd(end)) {
      GenerateIsRun(start, interval, Weekly, end);
      WeeklyRunKeepsWeekday(start, interval, EffectiveEnd(end));
    }
  }

  lemma WeeklyRunKeepsWeekday(start: Date, interval: int, last: Date)
    requires ValidDate(start) && ValidDate(last) && interval > 0 && NotAfter(start, last)
    ensures var r := DayRun(start, interval, Weekly, last);
      forall i :: 0 <= i < |r| ==> Weekday(r[i]) == Weekday(start)
  {
    var r := DayRun(start, interval, Weekly, last);
    forall i | 0 <= i < |r|
      ensures Weekday(r[i]) == Weekday(start)
    {
      assert r[i] in r;
      OccursWeeklyWeekday(start, interval, last, r[i]);
    }
  }

  /** A weekly occurrence falls on the start's weekday. */
  lemma OccursWeeklyWeekday(start: Date, k: int, last: Date, d: Date)
    requires ValidDate(start) && k > 0 && Occurs(start, k, Weekly, last, d)
    ensures Weekday(d) == Weekday(start)
  {
    WeeksApart(start, d, k);
  }

  /** Days a multiple of `7 * k` days apart fall on the same weekday. */
  lemma WeeksApart(a: Date, b: Date, k: int)
    requires ValidDate(a) && ValidDate(b) && k > 0
    requires (DayNumber(b) - DayNumber(a)) % (7 * k) == 0
    ensures Weekday(b) == Weekday(a)
  {
    var gap := DayNumber(b) - DayNumber(a);
    Arith.MultipleOfProduct(gap, 7, k);
    WeekdayOfWeeksLater(a, b, gap / 7);
  }

  /** Daily with interval 1 and no end runs to `MAX_END_DATE` itself. */
  lemma DailyWithoutEndReachesMax(start: Date)
    requires ValidDate(start) && NotAfter(start, MaxEndDate)
    ensures var r := Generate(start, 1, Daily, None);
      r != [] && r[0] == start && r[|r| - 1] == MaxEndDate
  {
    GenerateIsRun(start, 1, Daily, None);
    var r := DayRun(start, 1, Daily, MaxEndDate);
    BeforeIffDayNumber(r[|r| - 1], MaxEndDate);
  }

  /** Daily every second day, October 1st to 7th. */
  lemma DailyEverySecondDay()
    ensures Generate(Date(2025, 10, 1), 2, Daily, Some(Date(2025, 10, 7)))
      == [Date(2025, 10, 1), Date(2025, 10, 3), Date(2025, 10, 5), Date(2025, 10, 7)]
  {
    var start, last := Date(2025, 10, 1), Date(2025, 10, 7);
    var s := [Date(2025, 10, 1), Date(2025, 10, 3), Date(2025, 10, 5), Date(2025, 10, 7)];
    forall d
      ensures d in s <==> Occurs(start, 2, Daily, last, d)
    {
      if ValidDate(d) && NotAfter(start, d) && NotAfter(d, last) {
        assert d.year == 2025 && d.month == 10 && 1 <= d.day <= 7;
        assert DayNumber(d) - DayNumber(start) == d.day - 1;
      }
    }
    GenerateIsTheOccurrences(start, 2, Daily, Some(last), s);
  }

  /** Monthly from January 31st to August 31st skips the months without a 31st. */
  lemma MonthlyFromJanuary31()
    ensures Generate(Date(2025, 1, 31), 1, Monthly, Some(Date(2025, 8, 31)))
      == [Date(2025, 1, 31), Date(2025, 3, 31), Date(2025, 5, 31), Date(2025, 7, 31), Date(2025, 8, 31)]
  {
    var start, last := Date(2025, 1, 31), Date(2025, 8, 31);
    var s := [Date(2025, 1, 31), Date(2025, 3, 31), Date(2025, 5, 31), Date(2025, 7, 31), Date(2025, 8, 31)];
    forall d
      ensures d in s <==> Occurs(start, 1, Monthly, last, d)
    {
      if Occurs(start, 1, Monthly, last, d) {
        assert d.year == 2025 && 1 <= d.month <= 8 && d.day == 31;
        assert d.month in {1, 3, 5, 7, 8};
      }
    }
    GenerateIsTheOccurrences(start, 1, Monthly, Some(last), s);
  }

  /** Monthly from January 30th to March 30th of any year skips February,
      which has no 30th. */
  lemma MonthlyFromJanuary30(y: int)
    ensures Generate(Date(y, 1, 30), 1, Monthly, Some(Date(y, 3, 30)))
      == [Date(y, 1, 30), Date(y, 3, 30)]
  {
    var start, last := Date(y, 1, 30), Date(y, 3, 30);
    var s := [Date(y, 1, 30), Date(y, 3, 30)];
    forall d
      ensures d in s <==> Occurs(start, 1, Monthly, last, d)
    {
      if Occurs(start, 1, Monthly, last, d) {
        assert d.year == y && 1 <= d.month <= 3 && d.day == 30;
        assert d.month != 2;
      }
    }
    GenerateIsTheOccurrences(start, 1, Monthly, Some(last), s);
  }

  /** Yearly from a February 29th lands only on leap years. */
  lemma YearlyFromFebruary29()
    ensures Generate(Date(2024, 2, 29), 1, Yearly, Some(Date(2028, 2, 29)))
      == [Date(2024, 2, 29), Date(2028, 2, 29)]
  {
    var start, last := Date(2024, 2, 29), Date(2028, 2, 29);
    var s := [Date(2024, 2, 29), Date(2028, 2, 29)];
    forall d
      ensures d in s <==> Occurs(start, 1, Yearly, last, d)
    {
      if Occurs(start, 1, Yearly, last, d) {
        assert d.month == 2 && d.day == 29 && d.year in {2024, 2025, 2026, 2027, 2028};
        assert IsLeap(d.year);
      }
    }
    GenerateIsTheOccurrences(start, 1, Yearly, Some(last), s);
  }

  /** Yearly candidates lie on the grid start year + k × interval: every
      third year from February 29th, 2024 skips 2027, 2030 and 2033 and meets
      the next leap day on the grid, 2036, but not 2028 or 2032. */
  lemma YearlyGridFromFebruary29()
    ensures Generate(Date(2024, 2, 29), 3, Yearly, Some(Date(2036, 2, 29)))
      == [Date(2024, 2, 29), Date(2036, 2, 29)]
  {
    var start, last := Date(2024, 2, 29), Date(2036, 2, 29);
    var s := [Date(2024, 2, 29), Date(2036, 2, 29)];
    forall d
      ensures d in s <==> Occurs(start, 3, Yearly, last, d)
    {
      if Occurs(start, 3, Yearly, last, d) {
        assert d.month == 2 && d.day == 29 && d.year in {2024, 2027, 2030, 2033, 2036};
        assert IsLeap(d.year);
      }
    }
    GenerateIsTheOccurrences(start, 3, Yearly, Some(last), s);
  }

  // ---------------------------------------------------------------------
  // The saving hook: `createRepeatEvent` clamps the rule's end.
  // ---------------------------------------------------------------------

  /** The end `createRepeatEvent` hands to the generator: `MAX_END_DATE` when
      the rule has no end date (absent or empty text), otherwise the earlier of
      the end date and `MAX_END_DATE`. None when the end text is not a date:
      `Math.min` with NaN is NaN, an invalid date that every comparison
      rejects. */
  function ClampedEnd(endDate: Option<string>): (r: Option<Date>)
    ensures r.Some? ==> ValidDate(r.value) && NotAfter(r.value, MaxEndDate)
    ensures endDate.None? || endDate == Some("") ==> r == Some(MaxEndDate)
    ensures endDate.Some? && endDate.value != "" ==>
      (ParseDate(endDate.value).None? ==> r.None?)
      && (ParseDate(endDate.value).Some? ==>
            var e := ParseDate(endDate.value).value;
            && r.Some? && NotAfter(r.value, e)
            && (NotAfter(e, MaxEndDate) ==> r.value == e)
            && (NotAfter(MaxEndDate, e) ==> r.value == MaxEndDate))
  {
    match endDate
    case None => Some(MaxEndDate)
    case Some(text) =>
      if text == "" then Some(MaxEndDate)
      else
        match ParseDate(text)
        case None => None
        case Some(e) => Some(MinDate(e, MaxEndDate))
  }

  /** The days on which `createRepeatEvent` would post a copy of a repeating
      event if it called the generator its unit tests describe. The hook
      calls the code's own generator; `AsWritten.RepeatDatesAsWritten` models
      that call, and the two agree for daily and weekly events. */
  function RepeatDatesForEvent(e: Event): (r: seq<Date>)
    requires ValidDate(e.date) && e.repeat.kind != NoRepeat
    ensures forall i :: 0 <= i < |r| ==> NotAfter(r[i], MaxEndDate) && NotAfter(e.date, r[i])
    ensures StrictlyIncreasing(r)
  {
    match ClampedEnd(e.repeat.endDate)
    case None => []
    case Some(last) => Generate(e.date, e.repeat.interval, e.repeat.kind, Some(last))
  }

  /** An end on or before `MAX_END_DATE` is used as given; a later one, or none,
      gives the same days as the generator run to `MAX_END_DATE`. */
  lemma RepeatDatesClamp(e: Event)
    requires ValidDate(e.date) && e.repeat.kind != NoRepeat
    ensures e.repeat.endDate.None? ==>
      RepeatDatesForEvent(e) == Generate(e.date, e.repeat.interval, e.repeat.kind, None)
    ensures e.repeat.endDate.Some? && ParseDate(e.repeat.endDate.value).Some? ==>
      var last := ParseDate(e.repeat.endDate.value).value;
      && (NotAfter(last, MaxEndDate) ==>
          RepeatDatesForEvent(e) == Generate(e.date, e.repeat.interval, e.repeat.kind, Some(last)))
      && (NotAfter(MaxEndDate, last) ==>
          RepeatDatesForEvent(e) == Generate(e.date, e.repeat.interval, e.repeat.kind, None))
  {
    if e.repeat.endDate.Some? && ParseDate(e.repeat.endDate.value).Some? {
      ParseExamples();
      assert e.repeat.endDate.value != "";
    }
  }
}

=== FILE: repeatops.dfy ===
/** Operations on the list of posted instances of repeating events: editing
    one instance into a one-off event, deleting instances, telling repeating
    events apart, finding the instances of a series and creating them. */
module RepeatOps {

  import opened Wrappers
  import opened Dates
  import opened Events
  import opened Text
  import opened Seqs

  // ---------------------------------------------------------------------
  // modifyRepeatEvent
  // ---------------------------------------------------------------------

  /** The edit applied to one event: the target takes the patch's fields and
      stops repeating, whatever repeat the patch carries; other events stay. */
  function ModifyOne(e: Event, targetId: string, patch: EventPatch): Event
  {
    if e.id == targetId then ApplyPatch(e, patch).(repeat := SingleRepeat) else e
  }

  /** `modifyRepeatEvent(events, targetId, patch)`: `events.map` of the edit. */
  function ModifyRepeatEvent(events: seq<Event>, targetId: string, patch: EventPatch): (r: seq<Event>)
    ensures |r| == |events|
    ensures forall i :: 0 <= i < |events| && events[i].id != targetId ==> r[i] == events[i]
    ensures forall i :: 0 <= i < |events| && events[i].id == targetId ==>
      r[i].repeat == SingleRepeat && r[i] == ApplyPatch(events[i], patch).(repeat := SingleRepeat)
    ensures (forall i :: 0 <= i < |events| ==> events[i].id != targetId) ==> r == events
    decreases |events|
  {
    if |events| == 0 then []
    else [ModifyOne(events[0], targetId, patch)] + ModifyRepeatEvent(events[1..], targetId, patch)
  }

  /** Repeating an edit that keeps the target's id changes nothing more. */
  lemma ModifyIdempotent(events: seq<Event>, targetId: string, patch: EventPatch)
    requires patch.id.None? || patch.id == Some(targetId)
    ensures var r := ModifyRepeatEvent(events, targetId, patch);
      ModifyRepeatEvent(r, targetId, patch) == r
  {
    var r := ModifyRepeatEvent(events, targetId, patch);
    var r2 := ModifyRepeatEvent(r, targetId, patch);
    forall i | 0 <= i < |r|
      ensures r2[i] == r[i]
    {
      if events[i].id == targetId {
        assert r[i].id == targetId;
      }
    }
  }

  /** After the edit, the event found under the target's id no longer shows
      the repeat icon. */
  lemma ModifyRemovesRepeatIcon(events: seq<Event>, targetId: string, patch: EventPatch, k: int)
    requires 0 <= k < |events| && events[k].id == targetId
    requires patch.id.None? || patch.id == Some(targetId)
    ensures var found := FindById(ModifyRepeatEvent(events, targetId, patch), targetId);
      found.Some? && !ShouldShowRepeatIcon(found.value)
  {
    var r := ModifyRepeatEvent(events, targetId, patch);
    assert r[k].id == targetId;
    var found := FindById(r, targetId);
    var i :| 0 <= i < |r| && r[i] == found.value;
    assert events[i].id == targetId;
  }

  // ---------------------------------------------------------------------
  // deleteRepeatEvent
  // ---------------------------------------------------------------------

  /** Whether an event carries the given id. */
  function HasId(id: string): Event -> bool
  {
    (e: Event) => e.id == id
  }

  /** Whether an event carries an id other than the given one. */
  function LacksId(id: string): Event -> bool
  {
    (e: Event) => e.id != id
  }

  /** `deleteRepeatEvent(events, targetId)`: the events with another id, in order. */
  function DeleteRepeatEvent(events: seq<Event>, targetId: string): (r: seq<Event>)
    ensures forall e :: e in r <==> e in events && e.id != targetId
    ensures IsSubsequence(r, events)
    ensures |r| == |events| - Count(events, HasId(targetId))
    ensures (forall i :: 0 <= i < |events| ==> events[i].id != targetId) ==> r == events
  {
    FilterLength(events, HasId(targetId), LacksId(targetId));
    if forall i :: 0 <= i < |events| ==> events[i].id != targetId then
      FilterAllPass(events, LacksId(targetId));
      Filter(events, LacksId(targetId))
    else
      Filter(events, LacksId(targetId))
  }

  /** Whether an event's id is among the given ones, and its negation. */
  function HasIdIn(ids: seq<string>): Event -> bool
  {
    (e: Event) => e.id in ids
  }

  function LacksIdIn(ids: seq<string>): Event -> bool
  {
    (e: Event) => e.id !in ids
  }

  /** An id is missing from a list exactly when it is not its head and is
      missing from its tail. */
  lemma LacksIdInCons(ids: seq<string>)
    requires |ids| > 0
    ensures forall x: Event :: LacksIdIn(ids)(x) == (LacksId(ids[0])(x) && LacksIdIn(ids[1..])(x))
  {
    assert ids == [ids[0]] + ids[1..];
  }

  /** Deleting the ids one after another, as a caller removing several
      instances does, is one filter by all of them: every copy of a survivor
      stays, in order. */
  function DeleteAll(events: seq<Event>, ids: seq<string>): (r: seq<Event>)
    ensures forall e :: e in r <==> e in events && e.id !in ids
    ensures IsSubsequence(r, events)
    ensures r == Filter(events, LacksIdIn(ids))
    ensures |r| == |events| - Count(events, HasIdIn(ids))
    ensures (forall i :: 0 <= i < |events| ==> events[i].id in ids) ==> r == []
    decreases |ids|
  {
    FilterLength(events, HasIdIn(ids), LacksIdIn(ids));
    if |ids| == 0 then
      FilterAllPass(events, LacksIdIn(ids));
      SubsequenceRefl(events);
      assert |events| == 0 || events[0].id !in ids;
      events
    else
      var rest := DeleteRepeatEvent(events, ids[0]);
      var r := DeleteAll(rest, ids[1..]);
      SubsequenceTrans(r, rest, events);
      assert rest == Filter(events, LacksId(ids[0]));
      LacksIdInCons(ids);
      FilterFilter(events, LacksId(ids[0]), LacksIdIn(ids[1..]), LacksIdIn(ids));
      r
  }

  // ---------------------------------------------------------------------
  // isRepeatEvent, shouldShowRepeatIcon
  // ---------------------------------------------------------------------

  /** `isRepeatEvent`: the event repeats by day, week, month or year. */
  function IsRepeatEvent(e: Event): (r: bool)
    ensures r <==> e.repeat.kind in {Daily, Weekly, Monthly, Yearly}
  {
    e.repeat.kind != NoRepeat
  }

  /** `shouldShowRepeatIcon`: exactly the repeating events show the icon, so
      a one-off event, and an edited instance, does not. */
  function ShouldShowRepeatIcon(e: Event): (r: bool)
    ensures r <==> e.repeat.kind != NoRepeat
    ensures e.repeat == SingleRepeat ==> !r
  {
    IsRepeatEvent(e)
  }

  // ---------------------------------------------------------------------
  // getRepeatEventInstances
  // ---------------------------------------------------------------------

  /** `events.find(e => e.id === id)`: the first event with that id. */
  function FindById(events: seq<Event>, id: string): (r: Option<Event>)
    ensures r.None? <==> forall i :: 0 <= i < |events| ==> events[i].id != id
    ensures r.Some? ==>
      exists i :: 0 <= i < |events| && events[i] == r.value && r.value.id == id
                  && forall j :: 0 <= j < i ==> events[j].id != id
    decreases |events|
  {
    if |events| == 0 then None
    else if events[0].id == id then Some(events[0])
    else
      FindById(events[1..], id)
  }

  /** Two events belong to the same series when title, times, repeat type
      and interval agree. */
  predicate SameSeries(base: Event, e: Event)
  {
    e.title == base.title && e.startTime == base.startTime && e.endTime == base.endTime
    && e.repeat.kind == base.repeat.kind && e.repeat.interval == base.repeat.interval
  }

  /** The filter condition of the series lookup, and its negation. */
  function InSeries(base: Event): Event -> bool
  {
    (e: Event) => SameSeries(base, e)
  }

  function NotInSeries(base: Event): Event -> bool
  {
    (e: Event) => !SameSeries(base, e)
  }

  /** The series relation is an equivalence, so every instance of a series
      looks up the same series. */
  lemma SameSeriesIsEquivalence(a: Event, b: Event, c: Event)
    ensures SameSeries(a, a)
    ensures SameSeries(a, b) ==> SameSeries(b, a)
    ensures SameSeries(a, b) && SameSeries(b, c) ==> SameSeries(a, c)
  {
  }

  /** `getRepeatEventInstances(events, baseId)`: nothing when no event has the
      id or the first one found does not repeat; otherwise every event of
      its series, the base included, in order. */
  function GetRepeatEventInstances(events: seq<Event>, baseId: string): (r: seq<Event>)
    ensures (forall i :: 0 <= i < |events| ==> events[i].id != baseId) ==> r == []
    ensures FindById(events, baseId).Some? && !IsRepeatEvent(FindById(events, baseId).value) ==> r == []
    ensures FindById(events, baseId).Some? && IsRepeatEvent(FindById(events, baseId).value) ==>
      var base := FindById(events, baseId).value;
      && base in r
      && (forall e :: e in r <==> e in events && SameSeries(base, e))
      && |r| == Count(events, InSeries(base))
    ensures IsSubsequence(r, events)
  {
    match FindById(events, baseId)
    case None => []
    case Some(base) =>
      if !IsRepeatEvent(base) then []
      else
        FilterLength(events, InSeries(base), NotInSeries(base));
        Filter(events, InSeries(base))
  }

  /** The first event with an id is unaffected by deleting another id. */
  lemma {:induction false} FindByIdAfterDelete(events: seq<Event>, x: string, id: string)
    requires x != id
    ensures FindById(DeleteRepeatEvent(events, x), id) == FindById(events, id)
    decreases |events|
  {
    if |events| > 0 {
      FindByIdAfterDelete(events[1..], x, id);
      if events[0].id != x {
        assert DeleteRepeatEvent(events, x) == [events[0]] + DeleteRepeatEvent(events[1..], x);
        assert ([events[0]] + DeleteRepeatEvent(events[1..], x))[1..] == DeleteRepeatEvent(events[1..], x);
      }
    }
  }

  /** Deleting an instance removes it from the series and keeps the others:
      the series found afterwards is the series found before, minus that id. */
  lemma DeleteThenInstances(events: seq<Event>, x: string, baseId: string)
    requires x != baseId
    ensures GetRepeatEventInstances(DeleteRepeatEvent(events, x), baseId)
      == DeleteRepeatEvent(GetRepeatEventInstances(events, baseId), x)
  {
    FindByIdAfterDelete(events, x, baseId);
    match FindById(events, baseId)
    case None =>
    case Some(base) =>
      if IsRepeatEvent(base) {
        FilterCommute(events, LacksId(x), InSeries(base));
      }
  }

  // ---------------------------------------------------------------------
  // createRepeatEventInstances
  // ---------------------------------------------------------------------

  /** `${baseId}_${index}`. */
  function InstanceId(baseId: string, index: nat): (r: string)
    ensures |r| > |baseId| + 1
    ensures r[..|baseId|] == baseId && r[|baseId|] == '_'
    ensures r[|baseId| + 1..] == NatToString(index)
  {
    baseId + "_" + NatToString(index)
  }

  /** Instances of one base get different ids. */
  lemma InstanceIdInjective(baseId: string, i: nat, j: nat)
    requires InstanceId(baseId, i) == InstanceId(baseId, j)
    ensures i == j
  {
    var n := |baseId| + 1;
    assert InstanceId(baseId, i)[n..] == NatToString(i);
    assert InstanceId(baseId, j)[n..] == NatToString(j);
    NatToStringInjective(i, j);
  }

  /** `createRepeatEventInstances(base, dates)`: one copy of the base per date,
      the i-th carrying that date and the id `${base.id}_${i}`. */
  function CreateRepeatEventInstances(base: Event, dates: seq<Date>): (r: seq<Event>)
    ensures |r| == |dates|
    ensures forall i :: 0 <= i < |r| ==>
      r[i].date == dates[i] && r[i].id == InstanceId(base.id, i)
      && r[i].(id := base.id, date := base.date) == base
  {
    seq(|dates|, i requires 0 <= i < |dates| => base.(id := InstanceId(base.id, i), date := dates[i]))
  }

  /** The created instances have pairwise different ids. */
  lemma InstanceIdsDistinct(base: Event, dates: seq<Date>)
    ensures var r := CreateRepeatEventInstances(base, dates);
      forall i, j :: 0 <= i < j < |r| ==> r[i].id != r[j].id
  {
    var r := CreateRepeatEventInstances(base, dates);
    forall i, j | 0 <= i < j < |r|
      ensures r[i].id != r[j].id
    {
      if r[i].id == r[j].id {
        InstanceIdInjective(base.id, i, j);
      }
    }
  }

  /** The instances created from a repeating base form one series: looking
      up the series from any of them returns all of them. */
  lemma CreatedInstancesAreOneSeries(base: Event, dates: seq<Date>, k: int)
    requires IsRepeatEvent(base) && 0 <= k < |dates|
    ensures var r := CreateRepeatEventInstances(base, dates);
      GetRepeatEventInstances(r, r[k].id) == r
  {
    var r := CreateRepeatEventInstances(base, dates);
    var found := FindById(r, r[k].id);
    var i :| 0 <= i < |r| && r[i] == found.value;
    FilterAllPass(r, InSeries(found.value));
  }

  // ---------------------------------------------------------------------
  // Edits and deletions together.
  // ---------------------------------------------------------------------

  /** Deleting from a list with a known first element. */
  lemma DeleteCons(x: Event, s: seq<Event>, id: string)
    ensures DeleteRepeatEvent([x] + s, id)
      == if x.id == id then DeleteRepeatEvent(s, id) else [x] + DeleteRepeatEvent(s, id)
  {
    assert ([x] + s)[1..] == s;
  }

  /** Editing a list with a known first element. */
  lemma ModifyCons(x: Event, s: seq<Event>, id: string, patch: EventPatch)
    ensures ModifyRepeatEvent([x] + s, id, patch) == [ModifyOne(x, id, patch)] + ModifyRepeatEvent(s, id, patch)
  {
    assert ([x] + s)[1..] == s;
  }

  /** Editing one instance and deleting another do not interfere: either
      order gives the same list, as long as the edit does not give the
      target the deleted id. */
  lemma {:induction false} ModifyDeleteCommute(events: seq<Event>, modId: string, patch: EventPatch, delId: string)
    requires modId != delId && patch.id != Some(delId)
    ensures ModifyRepeatEvent(DeleteRepeatEvent(events, delId), modId, patch)
      == DeleteRepeatEvent(ModifyRepeatEvent(events, modId, patch), delId)
    decreases |events|
  {
    if |events| > 0 {
      var x, tail := events[0], events[1..];
      assert events == [x] + tail;
      var y := ModifyOne(x, modId, patch);
      assert y.id == delId <==> x.id == delId;
      ModifyDeleteCommute(tail, modId, patch, delId);
      DeleteCons(x, tail, delId);
      ModifyCons(x, tail, modId, patch);
      DeleteCons(y, ModifyRepeatEvent(tail, modId, patch), delId);
      if x.id != delId {
        ModifyCons(x, DeleteRepeatEvent(tail, delId), modId, patch);
      }
    }
  }
}

=== FILE: seqs.dfy ===
/** Order-preserving filtering of sequences (`Array.prototype.filter`) and the
    sub-sequence relation it produces. */
module Seqs {

  /** `a` can be obtained from `b` by deleting elements, keeping the order. */
  predicate IsSubsequence<T(==)>(a: seq<T>, b: seq<T>)
    decreases |b|
  {
    |a| == 0
    || (|b| > 0 && ((a[0] == b[0] && IsSubsequence(a[1..], b[1..])) || IsSubsequence(a, b[1..])))
  }

  lemma {:induction false} SubsequenceRefl<T(!new)>(a: seq<T>)
    ensures IsSubsequence(a, a)
    decreases |a|
  {
    if |a| > 0 {
      SubsequenceRefl(a[1..]);
    }
  }

  /** Deleting elements twice is deleting elements once. */
  lemma {:induction false} SubsequenceTrans<T(!new)>(a: seq<T>, b: seq<T>, c: seq<T>)
    requires IsSubsequence(a, b) && IsSubsequence(b, c)
    ensures IsSubsequence(a, c)
    decreases |c|
  {
    if |a| > 0 {
      if IsSubsequence(b, c[1..]) {
        SubsequenceTrans(a, b, c[1..]);
      } else if a[0] == b[0] && IsSubsequence(a[1..], b[1..]) {
        SubsequenceTrans(a[1..], b[1..], c[1..]);
      } else {
        SubsequenceTrans(a, b[1..], c[1..]);
      }
    }
  }

  /** `s.filter(p)`. */
  function Filter<T(!new)>(s: seq<T>, p: T -> bool): (r: seq<T>)
    ensures |r| <= |s|
    ensures forall x :: x in r <==> x in s && p(x)
    ensures forall i :: 0 <= i < |r| ==> p(r[i])
    ensures IsSubsequence(r, s)
    decreases |s|
  {
    if |s| == 0 then []
    else
      var rest := Filter(s[1..], p);
      if p(s[0]) then
        assert ([s[0]] + rest)[1..] == rest;
        [s[0]] + rest
      else
        rest
  }

  /** Filtering a sequence whose elements all pass leaves it unchanged. */
  lemma {:induction false} FilterAllPass<T(!new)>(s: seq<T>, p: T -> bool)
    requires forall i :: 0 <= i < |s| ==> p(s[i])
    ensures Filter(s, p) == s
    decreases |s|
  {
    if |s| > 0 {
      FilterAllPass(s[1..], p);
      assert s == [s[0]] + s[1..];
    }
  }

  /** Filtering a sequence none of whose elements pass gives the empty sequence. */
  lemma {:induction false} FilterNonePass<T(!new)>(s: seq<T>, p: T -> bool)
    requires forall i :: 0 <= i < |s| ==> !p(s[i])
    ensures Filter(s, p) == []
    decreases |s|
  {
    if |s| > 0 {
      FilterNonePass(s[1..], p);
    }
  }

  /** Filters that agree on every element of `s` give the same result. */
  lemma {:induction false} FilterCongruent<T(!new)>(s: seq<T>, p: T -> bool, q: T -> bool)
    requires forall i :: 0 <= i < |s| ==> p(s[i]) == q(s[i])
    ensures Filter(s, p) == Filter(s, q)
    decreases |s|
  {
    if |s| > 0 {
      FilterCongruent(s[1..], p, q);
    }
  }

  /** Two filters in a row are one filter by the conjunction `pq`. */
  lemma {:induction false} FilterFilter<T(!new)>(s: seq<T>, p: T -> bool, q: T -> bool, pq: T -> bool)
    requires forall x :: pq(x) == (p(x) && q(x))
    ensures Filter(Filter(s, p), q) == Filter(s, pq)
    decreases |s|
  {
    if |s| > 0 {
      FilterFilter(s[1..], p, q, pq);
      var rest := Filter(s[1..], p);
      if p(s[0]) {
        assert Filter(s, p) == [s[0]] + rest;
        assert ([s[0]] + rest)[1..] == rest;
      }
    }
  }

  /** The order in which two filters are applied does not matter. */
  lemma FilterCommute<T(!new)>(s: seq<T>, p: T -> bool, q: T -> bool)
    ensures Filter(Filter(s, p), q) == Filter(Filter(s, q), p)
  {
    var pq := x => p(x) && q(x);
    FilterFilter(s, p, q, pq);
    FilterFilter(s, q, p, pq);
  }

  /** Filtering twice by the same predicate is filtering once. */
  lemma FilterIdempotent<T(!new)>(s: seq<T>, p: T -> bool)
    ensures Filter(Filter(s, p), p) == Filter(s, p)
  {
    FilterAllPass(Filter(s, p), p);
  }

  /** Number of elements of `s` satisfying `p`. */
  function Count<T(!new)>(s: seq<T>, p: T -> bool): (n: nat)
    ensures n <= |s|
    decreases |s|
  {
    if |s| == 0 then 0 else (if p(s[0]) then 1 else 0) + Count(s[1..], p)
  }

  /** What a filter keeps and what it drops add up to the whole; `notP` is the
      negation of `p`. */
  lemma {:induction false} FilterLength<T(!new)>(s: seq<T>, p: T -> bool, notP: T -> bool)
    requires forall x :: notP(x) == !p(x)
    ensures |Filter(s, p)| == Count(s, p)
    ensures |Filter(s, notP)| == |s| - Count(s, p)
    decreases |s|
  {
    if |s| > 0 {
      FilterLength(s[1..], p, notP);
    }
  }
}

=== FILE: text.dfy ===
/** String helpers: lower-casing, substring search and decimal rendering of
    natural numbers. Strings are sequences of characters. */
module Text {

  /** Lower-case of one character. Only the ASCII letters A-Z have a
      lower-case form here; every other character maps to itself. */
  function LowerChar(c: char): (l: char)
    ensures 'A' <= c <= 'Z' ==> 'a' <= l <= 'z'
    ensures 'A' <= c <= 'Z' ==> l as int - 'a' as int == c as int - 'A' as int
    ensures !('A' <= c <= 'Z') ==> l == c
  {
    if 'A' <= c <= 'Z' then (c as int - 'A' as int + 'a' as int) as char else c
  }

  /** `toLowerCase`, character by character. */
  function Lower(s: string): (r: string)
    ensures |r| == |s|
    ensures forall i :: 0 <= i < |s| ==> r[i] == LowerChar(s[i])
  {
    seq(|s|, i requires 0 <= i < |s| => LowerChar(s[i]))
  }

  /** Lower-casing twice is lower-casing once. */
  lemma LowerIdempotent(s: string)
    ensures Lower(Lower(s)) == Lower(s)
  {
  }

  /** `p` occurs in `s` starting at position `i`. */
  predicate OccursAt(s: string, p: string, i: int)
  {
    0 <= i && i + |p| <= |s| && s[i..i + |p|] == p
  }

  /** `s.includes(p)`: a left-to-right search for `p` in `s`. An empty `p`
      is found in every string. */
  function Includes(s: string, p: string): (r: bool)
    ensures r <==> exists i :: OccursAt(s, p, i)
    decreases |s|
  {
    if |p| > |s| then
      assert forall i :: !OccursAt(s, p, i);
      false
    else if s[..|p|] == p then
      assert OccursAt(s, p, 0);
      true
    else
      var rest := Includes(s[1..], p);
      IncludesShift(s, p);
      rest
  }

  /** Occurrences in the tail of `s` are occurrences in `s` shifted by one,
      and an occurrence in `s` not at 0 is an occurrence in the tail. */
  lemma IncludesShift(s: string, p: string)
    requires |s| >= 1 && |p| <= |s| && s[..|p|] != p
    ensures (exists i :: OccursAt(s[1..], p, i)) <==> (exists i :: OccursAt(s, p, i))
  {
    if exists i :: OccursAt(s[1..], p, i) {
      var i :| OccursAt(s[1..], p, i);
      assert s[1..][i..i + |p|] == s[i + 1..i + 1 + |p|];
      assert OccursAt(s, p, i + 1);
    }
    if exists i :: OccursAt(s, p, i) {
      var i :| OccursAt(s, p, i);
      assert i != 0;
      assert s[1..][i - 1..i - 1 + |p|] == s[i..i + |p|];
      assert OccursAt(s[1..], p, i - 1);
    }
  }

  // ---------------------------------------------------------------------
  // Decimal digits.
  // ---------------------------------------------------------------------

  predicate IsDigit(c: char)
  {
    '0' <= c <= '9'
  }

  function DigitChar(n: int): (c: char)
    requires 0 <= n < 10
    ensures IsDigit(c)
  {
    ('0' as int + n) as char
  }

  function DigitValue(c: char): (n: int)
    requires IsDigit(c)
    ensures 0 <= n < 10
    ensures DigitChar(n) == c
  {
    c as int - '0' as int
  }

  lemma DigitRoundTrip(n: int)
    requires 0 <= n < 10
    ensures DigitValue(DigitChar(n)) == n
  {
  }

  /** Decimal rendering of a natural number, as JavaScript prints it in a
      template literal: no sign, no leading zeros. */
  function NatToString(n: nat): (s: string)
    ensures |s| >= 1
    ensures forall i :: 0 <= i < |s| ==> IsDigit(s[i])
    ensures n < 10 <==> |s| == 1
    decreases n
  {
    if n < 10 then [DigitChar(n)] else NatToString(n / 10) + [DigitChar(n % 10)]
  }

  /** Different numbers print differently. */
  lemma {:induction false} NatToStringInjective(a: nat, b: nat)
    requires NatToString(a) == NatToString(b)
    ensures a == b
    decreases a
  {
    if a >= 10 {
      var sa, sb := NatToString(a), NatToString(b);
      assert b >= 10;
      assert sa[..|sa| - 1] == NatToString(a / 10);
      assert sb[..|sb| - 1] == NatToString(b / 10);
      NatToStringInjective(a / 10, b / 10);
      DigitRoundTrip(a % 10);
      DigitRoundTrip(b % 10);
      assert sa[|sa| - 1] == DigitChar(a % 10);
      assert sb[|sb| - 1] == DigitChar(b % 10);
    } else {
      DigitRoundTrip(a);
      DigitRoundTrip(b);
    }
  }
}

=== FILE: validation.dfy ===
/** The repeat-rule validators: `validateRepeatInfo`, `validateRepeatEndDate`
    and `validateRepeatInterval`. Each runs its checks in a fixed order and
    reports the first one that fails. */
module RepeatValidation {

  import opened Wrappers
  import opened Dates
  import opened Events
  import opened Text
  import opened DateText
  import opened Recurrence

  /** What a failed check reports; `Message` gives the text shown to users. */
  datatype ValidationError =
    | InvalidType
    | NegativeInterval
    | ZeroInterval
    | IntervalAboveMax(typeName: string, max: nat)
    | InvalidEndDateFormat
    | InvalidDateFormat
    | EndNotAfterStart
    | EndAfterMax

  /** `{ isValid, error? }`. */
  datatype ValidationResult = ValidationResult(isValid: bool, error: Option<ValidationError>)

  const Ok := ValidationResult(true, None)

  function Fail(e: ValidationError): ValidationResult
  {
    ValidationResult(false, Some(e))
  }

  /** `MAX_END_DATE_STRING`. */
  const MaxEndDateText := "2025-10-30"

  /** The error texts of the validators. The text for an interval above the
      maximum starts with the type name and ends with the maximum's digits
      followed by "입니다.". */
  function Message(e: ValidationError): (m: string)
    ensures e.IntervalAboveMax? ==>
      |m| == |e.typeName| + |" 반복의 최대 간격은 "| + |NatToString(e.max)| + |"입니다."|
      && m[..|e.typeName|] == e.typeName
      && m[|m| - |"입니다."| - |NatToString(e.max)|..|m| - |"입니다."|] == NatToString(e.max)
  {
    match e
    case InvalidType => "유효하지 않은 반복 유형입니다."
    case NegativeInterval => "반복 간격은 0 이상이어야 합니다."
    case ZeroInterval => "반복 간격은 1 이상이어야 합니다."
    case IntervalAboveMax(t, m) => t + " 반복의 최대 간격은 " + NatToString(m) + "입니다."
    case InvalidEndDateFormat => "유효하지 않은 종료일 형식입니다."
    case InvalidDateFormat => "유효하지 않은 날짜 형식입니다."
    case EndNotAfterStart => "종료일은 시작일보다 늦어야 합니다."
    case EndAfterMax => "종료일은 " + MaxEndDateText + " 이전이어야 합니다."
  }

  /** The message for an interval above the maximum names that maximum: two
      different maximums of one type never give the same text. */
  lemma IntervalMessageNamesMax(typeName: string, a: nat, b: nat)
    requires Message(IntervalAboveMax(typeName, a)) == Message(IntervalAboveMax(typeName, b))
    ensures a == b
  {
    var ma := Message(IntervalAboveMax(typeName, a));
    var k := |"입니다."|;
    assert |NatToString(a)| == |NatToString(b)|;
    assert ma[|ma| - k - |NatToString(a)|..|ma| - k] == NatToString(a);
    assert ma[|ma| - k - |NatToString(b)|..|ma| - k] == NatToString(b);
    NatToStringInjective(a, b);
  }

  /** `MAX_END_DATE_STRING` names `MAX_END_DATE`. */
  lemma MaxEndDateTextIsMaxEndDate()
    ensures ParseDate(MaxEndDateText) == Some(MaxEndDate)
  {
    ParseExamples();
  }

  /** A repeat rule as the validators receive it: the type is the raw text,
      which need not be one of the known type names. */
  datatype RawRepeatInfo = RawRepeatInfo(typeName: string, interval: int, endDate: Option<string>)

  /** The end date is present: JavaScript treats an absent and an empty end
      date alike (`if (repeatInfo.endDate)`). */
  predicate HasEndDate(endDate: Option<string>)
  {
    endDate.Some? && endDate.value != ""
  }

  // ---------------------------------------------------------------------
  // validateRepeatInfo
  // ---------------------------------------------------------------------

  /** `validateRepeatInfo`: type, then interval, then the end date's format,
      then the end date against `MAX_END_DATE`. */
  function ValidateRepeatInfo(info: RawRepeatInfo): (r: ValidationResult)
    ensures r.isValid <==> r.error.None?
    ensures r.error == Some(InvalidType) <==> ParseRepeatType(info.typeName).None?
    ensures r.error == Some(NegativeInterval) <==> ParseRepeatType(info.typeName).Some? && info.interval < 0
    ensures r.error == Some(InvalidEndDateFormat) <==>
      ParseRepeatType(info.typeName).Some? && info.interval >= 0
      && HasEndDate(info.endDate) && ParseDate(info.endDate.value).None?
    ensures r.error == Some(EndAfterMax) <==>
      ParseRepeatType(info.typeName).Some? && info.interval >= 0
      && HasEndDate(info.endDate) && ParseDate(info.endDate.value).Some?
      && Before(MaxEndDate, ParseDate(info.endDate.value).value)
    ensures r.error.Some? ==> r.error.value in {InvalidType, NegativeInterval, InvalidEndDateFormat, EndAfterMax}
  {
    if ParseRepeatType(info.typeName).None? then Fail(InvalidType)
    else if info.interval < 0 then Fail(NegativeInterval)
    else if HasEndDate(info.endDate) then
      match ParseDate(info.endDate.value)
      case None => Fail(InvalidEndDateFormat)
      case Some(end) => if Before(MaxEndDate, end) then Fail(EndAfterMax) else Ok
    else Ok
  }

  /** The rules `validateRepeatInfo` accepts: a known type, an interval of at
      least 0, and no end date or one that names a day not after
      `MAX_END_DATE`. Without an end date only type and interval matter. */
  lemma ValidateRepeatInfoAccepts(info: RawRepeatInfo)
    ensures ValidateRepeatInfo(info).isValid <==>
      ParseRepeatType(info.typeName).Some? && info.interval >= 0
      && (HasEndDate(info.endDate) ==>
            ParseDate(info.endDate.value).Some? && NotAfter(ParseDate(info.endDate.value).value, MaxEndDate))
    ensures !HasEndDate(info.endDate) ==>
      (ValidateRepeatInfo(info).isValid <==> ParseRepeatType(info.typeName).Some? && info.interval >= 0)
  {
    var r := ValidateRepeatInfo(info);
    if r.error.Some? {
      assert r.error.value in {InvalidType, NegativeInterval, InvalidEndDateFormat, EndAfterMax};
    }
  }

  /** A rule `validateRepeatInfo` accepts needs no clamping in the saving
      hook: the generator runs to the rule's own end date, or to
      `MAX_END_DATE` when there is none. */
  lemma AcceptedRuleIsNotClamped(e: Event, info: RawRepeatInfo)
    requires ValidDate(e.date) && e.repeat.kind != NoRepeat
    requires info == RawRepeatInfo(TypeName(e.repeat.kind), e.repeat.interval, e.repeat.endDate)
    requires ValidateRepeatInfo(info).isValid
    ensures HasEndDate(e.repeat.endDate) ==>
      RepeatDatesForEvent(e)
        == Generate(e.date, e.repeat.interval, e.repeat.kind, ParseDate(e.repeat.endDate.value))
    ensures !HasEndDate(e.repeat.endDate) ==>
      RepeatDatesForEvent(e) == Generate(e.date, e.repeat.interval, e.repeat.kind, None)
  {
    ValidateRepeatInfoAccepts(info);
    RepeatDatesClamp(e);
  }

  // ---------------------------------------------------------------------
  // validateRepeatEndDate
  // ---------------------------------------------------------------------

  /** `validateRepeatEndDate(endDate, startDate)`: both must be dates, the end
      strictly after the start and not after `MAX_END_DATE`. */
  function ValidateRepeatEndDate(endText: string, startText: string): (r: ValidationResult)
    ensures r.isValid <==> r.error.None?
    ensures r.error == Some(InvalidDateFormat) <==> ParseDate(startText).None? || ParseDate(endText).None?
    ensures r.error == Some(EndNotAfterStart) <==>
      ParseDate(startText).Some? && ParseDate(endText).Some?
      && NotAfter(ParseDate(endText).value, ParseDate(startText).value)
    ensures r.error == Some(EndAfterMax) <==>
      ParseDate(startText).Some? && ParseDate(endText).Some?
      && Before(ParseDate(startText).value, ParseDate(endText).value)
      && Before(MaxEndDate, ParseDate(endText).value)
    ensures r.isValid <==>
      ParseDate(startText).Some? && ParseDate(endText).Some?
      && Before(ParseDate(startText).value, ParseDate(endText).value)
      && NotAfter(ParseDate(endText).value, MaxEndDate)
  {
    match (ParseDate(startText), ParseDate(endText))
    case (Some(start), Some(end)) =>
      if NotAfter(end, start) then Fail(EndNotAfterStart)
      else if Before(MaxEndDate, end) then Fail(EndAfterMax)
      else Ok
    case _ => Fail(InvalidDateFormat)
  }

  /** An end date `validateRepeatEndDate` accepts also passes the end-date
      checks of `validateRepeatInfo`, and the rule then repeats at least on
      its start day. */
  lemma AcceptedEndDateFitsRule(endText: string, startText: string, interval: int, kind: RepeatType)
    requires ValidateRepeatEndDate(endText, startText).isValid && kind != NoRepeat
    ensures ValidateRepeatInfo(RawRepeatInfo(TypeName(kind), interval, Some(endText))).isValid <==> interval >= 0
    ensures var start := ParseDate(startText).value;
      var s := Generate(start, interval, kind, ParseDate(endText));
      s != [] && s[0] == start
  {
    assert endText != "";
    ValidateRepeatInfoAccepts(RawRepeatInfo(TypeName(kind), interval, Some(endText)));
  }

  // ---------------------------------------------------------------------
  // validateRepeatInterval
  // ---------------------------------------------------------------------

  /** `maxIntervals`: the largest interval allowed for each type. */
  function MaxOf(kind: RepeatType): nat
  {
    match kind
    case NoRepeat => 0
    case Daily => 365
    case Weekly => 52
    case Monthly => 12
    case Yearly => 10
  }

  /** `maxIntervals[type]`: undefined for a text that is not a type name. */
  function MaxInterval(typeName: string): (m: Option<nat>)
    ensures m.Some? <==> ParseRepeatType(typeName).Some?
  {
    match ParseRepeatType(typeName)
    case Some(kind) => Some(MaxOf(kind))
    case None => None
  }

  /** `validateRepeatInterval(interval, type)`: not negative, not 0 unless
      the type is 'none', and at most the type's maximum. A comparison with
      the maximum of an unknown type is false, so that check is skipped. */
  function ValidateRepeatInterval(interval: int, typeName: string): (r: ValidationResult)
    ensures r.isValid <==> r.error.None?
    ensures r.error == Some(NegativeInterval) <==> interval < 0
    ensures r.error == Some(ZeroInterval) <==> interval == 0 && typeName != "none"
    ensures r.isValid <==>
      interval >= 0 && (interval == 0 ==> typeName == "none")
      && (MaxInterval(typeName).Some? ==> interval <= MaxInterval(typeName).value)
    ensures !r.isValid && interval > 0 ==>
      r.error == Some(IntervalAboveMax(typeName, MaxInterval(typeName).value))
  {
    if interval < 0 then Fail(NegativeInterval)
    else if interval == 0 && typeName != "none" then Fail(ZeroInterval)
    else match MaxInterval(typeName)
      case Some(m) => if interval > m then Fail(IntervalAboveMax(typeName, m)) else Ok
      case None => Ok
  }

  /** Per type: a repeating type takes 1 to its maximum, 'none' takes only 0,
      and a text that is no type name takes every positive interval. */
  lemma IntervalRangeByType(interval: int, kind: RepeatType, other: string)
    requires ParseRepeatType(other).None?
    ensures kind != NoRepeat ==>
      (ValidateRepeatInterval(interval, TypeName(kind)).isValid <==> 1 <= interval <= MaxOf(kind))
    ensures ValidateRepeatInterval(interval, "none").isValid <==> interval == 0
    ensures ValidateRepeatInterval(interval, other).isValid <==> interval >= 1
  {
    assert TypeName(kind) == "none" <==> kind == NoRepeat;
    assert other != "none" by {
      assert ParseRepeatType("none") == Some(NoRepeat);
    }
  }

  // ---------------------------------------------------------------------
  // The cases of the unit tests.
  // ---------------------------------------------------------------------

  lemma ParsesAsNovember1()
    ensures ParseDate("2025-11-01") == Some(Date(2025, 11, 1))
  {
    ParseFormatRoundTrip(Date(2025, 11, 1));
    assert FormatDate(Date(2025, 11, 1)) == "2025-11-01";
  }

  lemma ParsesAsOctober1()
    ensures ParseDate("2025-10-01") == Some(Date(2025, 10, 1))
  {
    ParseFormatRoundTrip(Date(2025, 10, 1));
    assert FormatDate(Date(2025, 10, 1)) == "2025-10-01";
  }

  lemma ParsesAsSeptember30()
    ensures ParseDate("2025-09-30") == Some(Date(2025, 9, 30))
  {
    ParseFormatRoundTrip(Date(2025, 9, 30));
    assert FormatDate(Date(2025, 9, 30)) == "2025-09-30";
  }

  lemma ValidateRepeatInfoExamples()
    ensures ValidateRepeatInfo(RawRepeatInfo("daily", 1, Some("2025-10-30"))) == Ok
    ensures ValidateRepeatInfo(RawRepeatInfo("invalid", 1, Some("2025-10-30"))) == Fail(InvalidType)
    ensures ValidateRepeatInfo(RawRepeatInfo("daily", -1, Some("2025-10-30"))) == Fail(NegativeInterval)
    ensures ValidateRepeatInfo(RawRepeatInfo("daily", 1, Some("invalid-date"))) == Fail(InvalidEndDateFormat)
    ensures ValidateRepeatInfo(RawRepeatInfo("daily", 1, Some("2025-11-01"))) == Fail(EndAfterMax)
    ensures ValidateRepeatInfo(RawRepeatInfo("daily", 1, None)) == Ok
    ensures ValidateRepeatInfo(RawRepeatInfo("invalid", -1, Some("2025-11-01"))) == Fail(InvalidType)
  {
    ParseExamples();
    ParsesAsNovember1();
  }

  lemma ValidateRepeatEndDateExamples()
    ensures ValidateRepeatEndDate("2025-10-30", "2025-10-01") == Ok
    ensures ValidateRepeatEndDate("2025-09-30", "2025-10-01") == Fail(EndNotAfterStart)
    ensures ValidateRepeatEndDate("2025-10-01", "2025-10-01") == Fail(EndNotAfterStart)
    ensures ValidateRepeatEndDate("2025-11-01", "2025-10-01") == Fail(EndAfterMax)
    ensures ValidateRepeatEndDate("2025-10-30", "invalid-date") == Fail(InvalidDateFormat)
    ensures ValidateRepeatEndDate("invalid-date", "2025-10-01") == Fail(InvalidDateFormat)
    ensures ValidateRepeatEndDate(MaxEndDateText, "2025-10-01") == Ok
  {
    ParseExamples();
    ParsesAsNovember1();
    ParsesAsOctober1();
    ParsesAsSeptember30();
  }

  lemma ValidateRepeatIntervalExamples()
    ensures ValidateRepeatInterval(1, "daily") == Ok
    ensures ValidateRepeatInterval(2, "weekly") == Ok
    ensures ValidateRepeatInterval(3, "monthly") == Ok
    ensures ValidateRepeatInterval(5, "yearly") == Ok
    ensures ValidateRepeatInterval(-1, "daily") == Fail(NegativeInterval)
    ensures ValidateRepeatInterval(0, "daily") == Fail(ZeroInterval)
    ensures ValidateRepeatInterval(0, "none") == Ok
    ensures ValidateRepeatInterval(366, "daily") == Fail(IntervalAboveMax("daily", 365))
    ensures ValidateRepeatInterval(53, "weekly") == Fail(IntervalAboveMax("weekly", 52))
    ensures ValidateRepeatInterval(13, "monthly") == Fail(IntervalAboveMax("monthly", 12))
    ensures ValidateRepeatInterval(11, "yearly") == Fail(IntervalAboveMax("yearly", 10))
    ensures ValidateRepeatInterval(-1, "invalid") == Fail(NegativeInterval)
    ensures ValidateRepeatInterval(365, "daily") == Ok && ValidateRepeatInterval(52, "weekly") == Ok
    ensures ValidateRepeatInterval(12, "monthly") == Ok && ValidateRepeatInterval(10, "yearly") == Ok
  {
  }

  /** The message for an interval above the weekly maximum reads as the
      source spells it. */
  lemma IntervalMessageExample()
    ensures Message(IntervalAboveMax("weekly", 52)) == "weekly 반복의 최대 간격은 52입니다."
  {
  }
}

=== FILE: wrappers.dfy ===
/** An optional value, used wherever the calendar code has a value that may be
    absent (an omitted end date, a field a patch does not set, a failed parse). */
module Wrappers {

  datatype Option<+T> = None | Some(value: T) {

    /** The value if present, otherwise the given default. */
    function GetOr(default: T): T
    {
      match this
      case Some(v) => v
      case None => default
    }
  }
}
